=== FILE: README.md ===
# samsara_demo ingestion pipeline, modelled in Dafny

This project models the core of the data handler of the samsara_demo fleet pipeline. One ingestion run goes like this:

- It fetches the fleet's vehicles and the sensor list from the Samsara API.
- It classifies each sensor by serial number as a door or a temperature sensor.
- It POSTs one request per sensor to `v1/sensors/<kind>`. Failed requests are dropped, and every response that did arrive is decoded as its kind.
- It composes one warehouse row from the first vehicle and the readings, paired with the sensors in order. The row holds:
  - the make, model, year and gateway serial;
  - per sensor, "Sensor i ID/Name/MAC/Type" tuples;
  - the latest ambient temperature in °F and the latest door state, each with a minute-precision timestamp.
- It merges the row into the local store:
  - when the store is absent, the row becomes the store;
  - otherwise it concatenates, sorts by index, and converts every object-typed column to `str`.

The project has eight modules:

| module | holds |
|---|---|
| `Wrappers` | `Option` and `Result` |
| `Text` | decimal text, and `strftime("%Y-%m-%d %H:%M")` |
| `Json` | decoded JSON and pydantic-style field readers |
| `DataModel` | the payload records, their strict decoders and their encoders |
| `Constants` | endpoint names and serial numbers |
| `ApiHandler` | URLs, sensor classification, the fetch loop, the filter loop, and the response wrappers |
| `Table` | a one-level model of the pandas frames involved |
| `GetDataMain` | the row composer, the warehouse (a class whose `store` field is the parquet file), and the run |

The HTTP client is a parameter `post: Request -> Option<Json>`: it answers with the decoded body, or None when the request fails. The vehicle and sensor-list fetches are `Option<Json>` inputs. Python's text for a float is the parameter `floatRepr`.

An exception that ends the run is a `Failure` value, and the store is then left untouched. This covers:
- the `ValueError` for an empty response;
- pydantic's `ValidationError`;
- the `IndexError` at `data[0]` or at a reading's `sensors[0]`.

## Model

| member | source | states |
|---|---|---|
| Text.ParseNatText | data_handler/src/get_data_main.py:51-53 | the decimal text of a sensor position reads back as that position |
| Text.NatTextInjective | data_handler/src/get_data_main.py:51-53 | different sensor positions give different decimal texts |
| Text.NatTextPrefixUnique | data_handler/src/get_data_main.py:51-53 | a decimal text followed by a non-digit suffix determines both the number and the suffix |
| Text.LabelUnique | data_handler/src/get_data_main.py:51-62 | two labels "prefix, position, space, suffix" are equal only when the positions and the suffixes are equal |
| Text.FormatMinute | data_handler/src/get_data_main.py:58 | the "%Y-%m-%d %H:%M" text of a datetime is always 16 characters long |
| Text.FormatMinuteFields | data_handler/src/get_data_main.py:58 | year, month, day, hour and minute sit at fixed positions as zero-padded digits |
| Text.ParseDigits | data_handler/src/get_data_main.py:58 | a zero-padded field of a number that fits its width reads back as that number |
| Text.FormatMinuteExact | data_handler/src/get_data_main.py:58 | two timestamps get the same text exactly when they fall in the same minute; seconds and microseconds are dropped |
| Json.DecodeList | data_handler/src/data_model.py:49 | a list field decodes exactly when every element decodes; the result keeps the elements in order |
| Json.DecodeEncodedList | data_handler/src/data_model.py:49 | decoding a list undoes encoding it, given an element decoder that undoes the element encoder |
| DataModel.TemperatureSensorRoundTrip | data_handler/src/data_model.py:9-12 | a TemperatureSensor survives encoding then decoding |
| DataModel.AreaRoundTrip | data_handler/src/data_model.py:14-16 | an Area, with its nested sensor list, survives encoding then decoding |
| DataModel.SensorConfigurationRoundTrip | data_handler/src/data_model.py:18-19 | a SensorConfiguration survives encoding then decoding |
| DataModel.AttributeRoundTrip | data_handler/src/data_model.py:29-32 | an Attribute, with its string list, survives encoding then decoding |
| DataModel.VehicleDecodeExact | data_handler/src/data_model.py:34-52 | a payload decodes to a given Vehicle if and only if every declared field holds that Vehicle's value |
| DataModel.EncodedVehicleNames | data_handler/src/data_model.py:35-38 | the encoded vehicle carries id, name, make and model under their own keys |
| DataModel.EncodedVehicleIdentity | data_handler/src/data_model.py:39-41 | the encoded vehicle carries year, serial and vin under their own keys |
| DataModel.EncodedVehicleOptionals | data_handler/src/data_model.py:42-44 | the three optional strings, None included, read back as they were |
| DataModel.EncodedVehicleTimes | data_handler/src/data_model.py:45-47 | the encoded vehicle carries the regulation mode and both time strings under their own keys |
| DataModel.EncodedVehicleLists | data_handler/src/data_model.py:49 | the attributes list reads back element for element |
| DataModel.EncodedVehicleNested | data_handler/src/data_model.py:50-52 | externalIds, gateway and sensorConfiguration read back as nested records |
| DataModel.EncodedVehicleFields | data_handler/src/data_model.py:34-52 | the encoded vehicle satisfies every field condition of that vehicle |
| DataModel.VehicleRoundTrip | data_handler/src/data_model.py:34-52 | a Vehicle survives encoding then decoding |
| DataModel.VehicleRequiresKey | data_handler/src/data_model.py:34-52 | a vehicle payload that lacks any field without a default is rejected |
| DataModel.VehicleOptionalDefaults | data_handler/src/data_model.py:42-44 | an absent licensePlate, notes or harshAccelerationSettingType becomes "" |
| DataModel.ExternalIdsDecodeExact | data_handler/src/data_model.py:25-27 | ExternalIds reads its serial from the alias `samsara.serial` and its model from `samsara.vin`, and from nothing else |
| DataModel.AreaDecodeExact | data_handler/src/data_model.py:14-16 | Area reads its sensors from the alias `temperatureSensors` |
| DataModel.SensorRoundTrip | data_handler/src/data_model.py:55-58 | a Sensor survives encoding then decoding |
| DataModel.SensorDecodeExact | data_handler/src/data_model.py:55-58 | a Sensor decodes exactly from an int `id`, a string `name` and a string `macAddress` |
| DataModel.GroupedTemperatureSensorRoundTrip | data_handler/src/data_model.py:65-67 | a grouped temperature reading survives encoding then decoding |
| DataModel.GroupedTemperatureSensorDecodeExact | data_handler/src/data_model.py:60-67 | a grouped temperature reading decodes exactly from `id`, `name`, `vehicleId`, an int `ambientTemperature` and a datetime `ambientTemperatureTime` |
| DataModel.GroupedDoorSensorRoundTrip | data_handler/src/data_model.py:69-71 | a grouped door reading survives encoding then decoding |
| DataModel.GroupedDoorSensorDecodeExact | data_handler/src/data_model.py:60-71 | a grouped door reading decodes exactly from `id`, `name`, `vehicleId`, a bool `doorClosed` and a datetime `doorStatusTime` |
| ApiHandler.SplitPath | data_handler/src/api_handler.py:36 | splitting on "/" always gives at least one piece |
| ApiHandler.SplitJoinPath | data_handler/src/api_handler.py:36 | splitting the "/"-joined endpoint list gives the list back, when no endpoint contains a slash |
| ApiHandler.GetRequestUrl | data_handler/src/api_handler.py:36 | every request URL starts with the base URL followed by "/" |
| ApiHandler.RequestUrlPath | data_handler/src/api_handler.py:36 | the path after the base URL splits back into exactly the endpoint list |
| ApiHandler.VehicleListUrl | data_handler/src/api_handler.py:62 | the vehicles are requested from https://api.samsara.com/fleet/vehicles |
| ApiHandler.SensorListUrl | data_handler/src/api_handler.py:84-86 | the sensor list is requested from https://api.samsara.com/v1/sensors/list |
| ApiHandler.VehicleResponseDecodeExact | data_handler/src/api_handler.py:155-162 | a vehicle list response decodes exactly from a `data` list of vehicles and a `pagination` object, which is kept as it is |
| ApiHandler.SensorListResponseDecodeExact | data_handler/src/api_handler.py:165-167 | a sensor list response decodes exactly from a `sensors` list of sensors |
| ApiHandler.DoorSensorResponseDecodeExact | data_handler/src/api_handler.py:180-183 | a door response decodes exactly from an int `groupId` and a `sensors` list of door readings |
| ApiHandler.TemperatureSensorResponseDecodeExact | data_handler/src/api_handler.py:185-188 | a temperature response decodes exactly from an int `groupId` and a `sensors` list of temperature readings |
| ApiHandler.ParseSensorListResponse | data_handler/src/api_handler.py:169-178 | one endpoint and one id per sensor, in list order; the ids are the sensors' ids; the endpoint is the door endpoint exactly when the serial is the door serial, and the temperature endpoint otherwise |
| ApiHandler.TemperatureSerialIsTemperature | data_handler/src/api_handler.py:173-176 | the temperature sensor's serial is routed to the temperature endpoint |
| ApiHandler.BodyValue | data_handler/src/api_handler.py:126 | the body handed on is None exactly when the request failed or its JSON body is `null`; otherwise it is the body unchanged |
| ApiHandler.FetchSensorData | data_handler/src/api_handler.py:111-132 | one entry per (endpoint, id) pair, as many as the shorter list; entry i is the body answering the POST to v1/sensors/endpoint with body {"sensors": [id]}, or None when that request failed or its body is JSON null |
| ApiHandler.DecodeSensorData | data_handler/src/api_handler.py:136-140 | a decoded reading is a door reading exactly when its endpoint is the door endpoint |
| ApiHandler.CountPresent | data_handler/src/api_handler.py:134-144 | the count is the number of positions holding a present response, so at most the number of responses |
| ApiHandler.FilterResponses | data_handler/src/api_handler.py:134-144 | the loop's output is the filter specification: absent responses dropped, present ones decoded as their endpoint's kind, in order |
| ApiHandler.FilteredFailureStays | data_handler/src/api_handler.py:134-144 | once a body fails to decode, the run ends with that failure whatever follows |
| ApiHandler.FilteredFailure | data_handler/src/api_handler.py:134-144 | filtering fails if and only if some present body does not decode as its kind, and it then names the first such position |
| ApiHandler.FilteredLength | data_handler/src/api_handler.py:134-144 | a successful filter returns exactly as many readings as there were present responses |
| ApiHandler.FilteredPlacement | data_handler/src/api_handler.py:134-144 | each present response's reading lands at the position given by the number of present responses before it |
| ApiHandler.CountPresentAfterGap | data_handler/src/api_handler.py:134-144 | after an absent response, fewer responses are present than positions passed |
| ApiHandler.AllFetchesFailNoReadings | data_handler/src/api_handler.py:100-144 | when every request fails, the sensor data is the empty list, not an error |
| ApiHandler.GetSensorData | data_handler/src/api_handler.py:100-144 | the result is that of fetching every classified sensor and then filtering the responses |
| Table.Dict.Set | data_handler/src/get_data_main.py:51-62 | dict assignment keeps the dict valid, stores the value under the key, and keeps the earlier keys in place; a new key goes last |
| Table.Dict.SetAll | data_handler/src/get_data_main.py:51-62 | a sequence of assignments stores each value in turn and keeps the earlier keys in place |
| Table.SetAllSix | data_handler/src/get_data_main.py:51-62 | six assignments in a row equal the six single assignments made one after another |
| Table.EmptyDict | data_handler/src/get_data_main.py:49 | the empty dict is valid and holds nothing |
| Table.NewColumns | data_handler/src/get_data_main.py:80 | the columns added by a concatenation are exactly the incoming columns the store lacks, with no repeats |
| Table.Pad | data_handler/src/get_data_main.py:80 | a padded row keeps its index and has a cell in exactly the wider set of columns |
| Table.Concat | data_handler/src/get_data_main.py:80 | `pd.concat`: the rows of both frames, the old columns first, the union of both column sets; well-formedness is kept |
| Table.ConcatRow | data_handler/src/get_data_main.py:80 | row i of the concatenation has the index and cells of its source row, and NaN in the columns that row lacked |
| Table.ConcatSelf | data_handler/src/get_data_main.py:80 | concatenating a one-row frame with itself keeps both copies; there is no deduplication |
| Table.Insert | data_handler/src/get_data_main.py:81 | inserting a row adds exactly that row |
| Table.InsertKeepsSorted | data_handler/src/get_data_main.py:81 | inserting into index-sorted rows keeps them sorted |
| Table.SortByIndex | data_handler/src/get_data_main.py:81 | `sort_index`: the rows come out sorted by index and are a permutation of the input |
| Table.SortKeepsWellFormed | data_handler/src/get_data_main.py:81 | sorting keeps every row's cells matched to the columns |
| Table.SortSortedUnchanged | data_handler/src/get_data_main.py:81 | rows already in index order are left in their order |
| Table.ObjectColumns | data_handler/src/get_data_main.py:82 | a column is selected exactly when it belongs to the frame and some row holds a string or a tuple in it, or it mixes bools with other cells |
| Table.FilterObject | data_handler/src/get_data_main.py:82 | the selection holds exactly the object-typed columns of the frame |
| Table.FilterObjectOrder | data_handler/src/get_data_main.py:82 | the selection lists those columns in the frame's column order, and repeats none when the frame repeats none |
| Table.TextMakesObjectColumn | data_handler/src/get_data_main.py:82 | a column in which some row holds a string is selected |
| Table.CoerceRow | data_handler/src/get_data_main.py:83 | converting a row's columns to `str` keeps its index and its set of columns |
| Table.CoerceObjectColumns | data_handler/src/get_data_main.py:82-83 | the loop over the object columns yields the frame with every object-typed column converted to `str` |
| Table.CoerceOneMore | data_handler/src/get_data_main.py:82-83 | converting one more column after the first k equals converting the first k+1 together |
| Table.SortCoerce | data_handler/src/get_data_main.py:81-83 | converting columns to `str` commutes with sorting by index |
| Table.ObjectColumnsOfSameRows | data_handler/src/get_data_main.py:81-82 | a permutation of the rows selects the same object columns |
| Table.SortNormalizeTwins | data_handler/src/get_data_main.py:81-83 | sorting and converting two equal rows leaves two equal rows |
| Table.NormalizeKeepsWellFormed | data_handler/src/get_data_main.py:82-83 | conversion keeps every row's cells matched to the columns |
| Table.NormalizeCells | data_handler/src/get_data_main.py:82-83 | after conversion, an object-typed column holds a string in every row, and every other column keeps its cell |
| Table.ObjectColumnUnchanged | data_handler/src/get_data_main.py:82-83 | a column that was not object-typed is still not object-typed after conversion |
| Table.FilterSameMembers | data_handler/src/get_data_main.py:82 | two frames with the same object columns give the same selection, in the same order |
| Table.NormalizeIdempotent | data_handler/src/get_data_main.py:82-83 | converting a second time changes nothing |
| GetDataMain.ColumnNameInjective | data_handler/src/get_data_main.py:42-62 | different columns have different labels, so the row never has two columns with the same name |
| GetDataMain.SensorColumnNameInjective | data_handler/src/get_data_main.py:51-60 | "Sensor i X" labels are equal only for the same position and the same field |
| GetDataMain.FieldNameInjective | data_handler/src/get_data_main.py:51-60 | the ID, Name, MAC and Type suffixes are pairwise different |
| GetDataMain.FahrenheitInverse | data_handler/src/get_data_main.py:57 | the millidegree-Celsius to Fahrenheit conversion loses nothing (it inverts exactly); 20 °C is 68 °F and 0 °C is 32 °F |
| GetDataMain.FirstWithoutReading | data_handler/src/get_data_main.py:57-62 | a position found is a paired reading whose grouped-sensor list is empty |
| GetDataMain.FirstWithoutReadingSpec | data_handler/src/get_data_main.py:50-62 | none is found if and only if every paired reading has a first grouped sensor, and every reading before the one found has one |
| GetDataMain.FirstWithoutReadingAt | data_handler/src/get_data_main.py:50-62 | the first empty reading is the one found, however many pairs follow it |
| GetDataMain.LastOfKind | data_handler/src/get_data_main.py:55-62 | a position found holds a reading of the asked kind |
| GetDataMain.LastOfKindSpec | data_handler/src/get_data_main.py:55-62 | the position found is the last of that kind, and none is found if and only if no paired reading is of that kind |
| GetDataMain.PairWrites | data_handler/src/get_data_main.py:51-62 | an iteration makes six writes when the reading has a grouped sensor, and four before it raises otherwise |
| GetDataMain.PairCellsSpelledOut | data_handler/src/get_data_main.py:51-62 | an iteration's cells are its writes applied one after another |
| GetDataMain.PairEntries | data_handler/src/get_data_main.py:51-62 | the writes on the insertion-ordered dict keep it valid and give the iteration's cells |
| GetDataMain.WritePair | data_handler/src/get_data_main.py:51-62 | one iteration raises if and only if the reading has no grouped sensor, and otherwise makes the iteration's writes |
| GetDataMain.PairCellsFrame | data_handler/src/get_data_main.py:51-62 | an iteration adds exactly its own keys and leaves every other key's cell unchanged |
| GetDataMain.PairCellsIdentity | data_handler/src/get_data_main.py:51-60 | an iteration stores the sensor's id, name and MAC, and the reading's kind, each as a one-element tuple |
| GetDataMain.PairCellsReading | data_handler/src/get_data_main.py:55-62 | an iteration with a reading stores its value and its minute-precision time in its kind's columns |
| GetDataMain.SensorDict | data_handler/src/get_data_main.py:49-62 | the dict after n iterations is valid and holds the cells of the first n pairs |
| GetDataMain.SensorCellsKeep | data_handler/src/get_data_main.py:50-62 | a key that the last pair does not write keeps its cell from the earlier pairs |
| GetDataMain.SensorCellsKeepOtherKind | data_handler/src/get_data_main.py:55-62 | a door reading leaves the temperature columns as they were, and a temperature reading leaves the door columns as they were |
| GetDataMain.SensorDictKeys | data_handler/src/get_data_main.py:50-62 | the dict's keys are exactly the keys some pair writes |
| GetDataMain.SensorDictIdentity | data_handler/src/get_data_main.py:50-60 | sensor i's four identity columns hold its id, name and MAC and its paired reading's kind |
| GetDataMain.SensorDictHasLatest | data_handler/src/get_data_main.py:55-62 | a kind's value and timestamp columns are present if and only if some paired reading is of that kind |
| GetDataMain.SensorDictLatest | data_handler/src/get_data_main.py:55-62 | they hold the value and time of the last paired reading of that kind, because later readings overwrite earlier ones |
| GetDataMain.SensorCellsAvoidVehicle | data_handler/src/get_data_main.py:42-62 | no pair writes Make, Model, Year or Gateway SN |
| GetDataMain.RowTableWellFormed | data_handler/src/get_data_main.py:65-68 | the joined one-row frame has distinct columns and a cell in each of them |
| GetDataMain.RowTableVehicle | data_handler/src/get_data_main.py:42-69 | the row has index 0, the four vehicle columns come first, and they hold the vehicle's make, model, year and gateway serial |
| GetDataMain.ConvertDataModelToTimeseries | data_handler/src/get_data_main.py:39-71 | the loop builds the composed row, or fails at the first paired reading that has no grouped sensor |
| GetDataMain.ComposedShape | data_handler/src/get_data_main.py:39-71 | a composed row is one well-formed row with index 0 that starts with the vehicle's four columns and values |
| GetDataMain.ComposedNoReadings | data_handler/src/get_data_main.py:49-68 | with no readings the loop does not run, and the row has only the four vehicle columns |
| GetDataMain.Warehouse.constructor | data_handler/src/get_data_main.py:76 | the warehouse starts with the given store, or with none when the file is absent |
| GetDataMain.Warehouse.UpdateDataWarehouse | data_handler/src/get_data_main.py:73-85 | the store becomes the merge of the old store and the new row, and stays well-formed |
| GetDataMain.MergedWellFormed | data_handler/src/get_data_main.py:76-84 | every merge leaves a store with a cell in every column |
| GetDataMain.MergeIntoAbsentStore | data_handler/src/get_data_main.py:76-77 | with no store, the store becomes exactly the new rows |
| GetDataMain.MergeKeepsEveryRow | data_handler/src/get_data_main.py:80-84 | the merged store has as many rows as the old store and the new rows together |
| GetDataMain.MergeSortedByIndex | data_handler/src/get_data_main.py:76-81 | after a merge the rows are in index order |
| GetDataMain.MergePermutation | data_handler/src/get_data_main.py:80-83 | the merged rows are a permutation of old rows then new rows, each with its object-typed cells converted to `str` |
| GetDataMain.MergeInOrder | data_handler/src/get_data_main.py:80-83 | when old and new rows are already in index order, old rows stay first and new rows follow them |
| GetDataMain.MergeObjectColumnsAreText | data_handler/src/get_data_main.py:80-83 | every object-typed column of the merged store holds a string in every row, and every other column keeps the sorted row's cell |
| GetDataMain.MergeTwiceKeepsBoth | data_handler/src/get_data_main.py:73-84 | storing the same composed row twice leaves two equal rows, not one |
| GetDataMain.RunIngestion | data_handler/src/get_data_main.py:87-106 | a run that fails a check stores nothing and reports why; a run that composes a row stores the merge of the old store and that row |
| GetDataMain.AbsentVehicleStopsFirst | data_handler/src/get_data_main.py:92-94 | an absent vehicle response, or one whose body is JSON null, ends the run first, whatever else would happen |
| GetDataMain.AbsentSensorListStopsNext | data_handler/src/get_data_main.py:95-98 | given a usable vehicle response, an absent or null sensor list response ends the run next |
| GetDataMain.RowUsesFirstVehicle | data_handler/src/get_data_main.py:95-104 | the row comes from the first vehicle of the response: one row, index 0, with that vehicle's make and gateway serial |
| GetDataMain.NoReadingsOnlyVehicleColumns | data_handler/src/get_data_main.py:99-106 | when every sensor request fails or answers null, the run still stores a row, holding only the four vehicle columns |
| GetDataMain.AbsentReadingShiftsPairing | data_handler/src/api_handler.py:134-144 | a failed request shifts later readings left, so a later sensor's reading is paired with an earlier sensor's identity columns |
| GetDataMain.ComposedIdentity | data_handler/src/get_data_main.py:50-60 | in the composed row, sensor p's ID, Name, MAC and Type columns hold sensor p's own id, name and MAC and the kind of the reading paired with it |
| GetDataMain.ShiftedReadingInRow | data_handler/src/get_data_main.py:50-60 | after a failed request, the row pairs an earlier sensor's ID with the Type of a later sensor's reading |

## Left out

- The HTTP layer is left out: the httpx client, the asyncio event loop, the bearer token and its file, and the status and request error paths. Each request is an answer of `post`, or None for a request that failed. A body that is JSON `null` is treated like a failed request, as `response.json()` returns None for it.
- The handler catches only HTTP status errors and request errors. Any other exception during a request ends the run in the source, for example a 2xx body that is not JSON. `post` cannot express such an answer, so the model has no path for it.
- The vehicle endpoint URL built by `fetch_data_httpx` is not a separate member. `GetRequestUrl` covers it through the same join.
- Parquet reading and writing are left out, along with snappy compression and the pyarrow dtype backend. The store is a field of the Warehouse class. `pd.read_parquet(..., dtype_backend="pyarrow")` would hand back typed Arrow columns, so `select_dtypes(include=["object"])` could select nothing on a reloaded store. The model treats the reloaded store as the frame that was written.
- Python's float-to-text conversion is the parameter `floatRepr`.
- Table.Repr quotes every string in single quotes and copies its characters as they are. Python's `repr` switches to double quotes for a string that holds `'` and no `"`. It also escapes backslashes, the quote it uses, and control and non-printable characters. These differences reach the stored text of tuple cells.
- GetDataMain.FahrenheitInverse: the conversion at get_data_main.py line 57 is computed on exact reals. Python computes it on binary floats, where `m * 0.001 * (9/5) + 32` is rounded, so the exact inverse holds for the model only (m = 1 is already rounded in Python).
- Table.SortByIndex is a stable insertion sort, while pandas' default `sort_index` kind (quicksort) promises no order among equal indexes. This does not matter for what the program stores: every composed row has index 0 (GetDataMain.RowTableVehicle), so the concatenated index is already monotonic, and pandas returns such a frame in its existing order. GetDataMain.MergeInOrder therefore describes the stored frame too; it would not carry over to a store whose equal indexes needed sorting.
- pandas dtype inference is reduced to one rule: a column is object-typed when it holds a string or a tuple, or when it mixes bools with other cells (NaN included). Upcasting of integer columns to float when NaN is padded in is not modelled.
- Pydantic coercion is not modelled: decoders accept only values of the declared JSON type.
- Datetime parsing is left out. Only the values of fields declared `datetime` arrive already parsed, as the `JTime` leaf: `ambientTemperatureTime` and `doorStatusTime` (data_model.py lines 67 and 71). Every other string is a `JStr`, timestamp-shaped or not, including a vehicle's `createdAtTime` and `updatedAtTime`, which are declared `str`. Timezones and `pagination`'s contents are not interpreted.
- `Json` has no fractional-number leaf. A JSON number such as 20000.0 cannot be expressed, although pydantic's lax `int` validation accepts it for an int field.
- `post` is a function of the request. Two sensor-list entries with the same endpoint and id therefore get the same answer, in FetchSensorData and in RunIngestion. The source sends one independent request per entry, so one of two duplicates can fail while the other succeeds; that per-request outcome among duplicates is not modelled.
- Text.FormatMinute pads years below 1000 to four digits. A platform `strftime` may not.
- The third `None` check in `main`, on the sensor data list, is not modelled. `get_sensor_data` always returns a list, so the check cannot fire.
- The `print` statements are left out.
- When an exception ends the run, the half-built dict and frames are not kept. Nothing observes them.
- Column labels are the `Column` datatype. `ColumnName` renders them, and GetDataMain.ColumnNameInjective shows the rendering loses nothing.
- The request helpers `get_vehicle_data` and `get_sensor_list` are not separate members. Their results are the `vehicleFetch` and `sensorListFetch` inputs of `RunIngestion`.

=== FILE: api_handler.dfy ===
/** Request URLs, sensor classification, the per-sensor fetch loop, the
    response filter, and the API response wrappers. The HTTP client is the
    parameter `post`: it answers a request with the decoded JSON body, or
    None when the request fails or the status is an error. */
module ApiHandler {
  import opened Wrappers
  import opened Json
  import opened DataModel
  import opened Constants

  // === Request URLs ===

  /** Python's "/".join(parts). */
  function JoinPath(parts: seq<string>): string {
    if |parts| == 0 then ""
    else if |parts| == 1 then parts[0]
    else parts[0] + "/" + JoinPath(parts[1..])
  }

  /** Python's s.split("/"): the text between slashes, always at least one piece. */
  function SplitPath(s: string): (r: seq<string>)
    ensures |r| > 0
  {
    if s == [] then [""]
    else
      var rest := SplitPath(s[1..]);
      if s[0] == '/' then [""] + rest else [[s[0]] + rest[0]] + rest[1..]
  }

  predicate NoSlash(p: string) {
    forall i :: 0 <= i < |p| ==> p[i] != '/'
  }

  lemma {:induction false} SplitNoSlash(p: string)
    requires NoSlash(p)
    ensures SplitPath(p) == [p]
  {
    if p != [] {
      SplitNoSlash(p[1..]);
      assert [p[0]] + p[1..] == p;
    }
  }

  lemma {:induction false} SplitAfterSegment(p: string, t: string)
    requires NoSlash(p)
    ensures SplitPath(p + "/" + t) == [p] + SplitPath(t)
  {
    if p == [] {
      assert p + "/" + t == "/" + t;
      assert ("/" + t)[1..] == t;
    } else {
      assert (p + "/" + t)[1..] == p[1..] + "/" + t;
      SplitAfterSegment(p[1..], t);
      assert [p[0]] + p[1..] == p;
    }
  }

  /** Splitting a joined path gives the segments back. */
  lemma {:induction false} SplitJoinPath(parts: seq<string>)
    requires |parts| > 0
    requires forall i :: 0 <= i < |parts| ==> NoSlash(parts[i])
    ensures SplitPath(JoinPath(parts)) == parts
  {
    if |parts| == 1 {
      SplitNoSlash(parts[0]);
    } else {
      SplitAfterSegment(parts[0], JoinPath(parts[1..]));
      SplitJoinPath(parts[1..]);
    }
  }

  /** The URL for an endpoint: the API's base address, a slash, then the
      endpoint segments separated by slashes. */
  function GetRequestUrl(endpoint: seq<string>): (url: string)
    ensures |url| > |BaseUrl| && url[..|BaseUrl| + 1] == BaseUrl + "/"
  {
    BaseUrl + "/" + JoinPath(endpoint)
  }

  /** The path after the base address splits back into the endpoint segments. */
  lemma RequestUrlPath(endpoint: seq<string>)
    requires |endpoint| > 0
    requires forall i :: 0 <= i < |endpoint| ==> NoSlash(endpoint[i])
    ensures SplitPath(GetRequestUrl(endpoint)[|BaseUrl| + 1..]) == endpoint
  {
    assert GetRequestUrl(endpoint)[|BaseUrl| + 1..] == JoinPath(endpoint);
    SplitJoinPath(endpoint);
  }

  /** The vehicles are requested from fleet/vehicles. */
  lemma VehicleListUrl()
    ensures GetRequestUrl([Fleet, Vehicles]) == "https://api.samsara.com/fleet/vehicles"
  {
    assert [Fleet, Vehicles][1..] == [Vehicles];
    assert JoinPath([Vehicles]) == "vehicles";
    assert JoinPath([Fleet, Vehicles]) == "fleet" + "/" + "vehicles";
  }

  lemma SensorListUrl()
    ensures GetRequestUrl([V1, Sensors, List]) == "https://api.samsara.com/v1/sensors/list"
  {
    assert [V1, Sensors, List][1..] == [Sensors, List];
    assert [Sensors, List][1..] == [List];
    assert JoinPath([List]) == "list";
    assert JoinPath([Sensors, List]) == "sensors" + "/" + "list";
    assert JoinPath([V1, Sensors, List]) == "v1" + "/" + ("sensors" + "/" + "list");
  }

  // === Response wrappers ===

  datatype VehicleResponse = VehicleResponse(data: seq<Vehicle>, pagination: map<string, Json>)

  datatype SensorListResponse = SensorListResponse(sensors: seq<Sensor>)

  datatype DoorSensorResponse = DoorSensorResponse(groupId: int, sensors: seq<GroupedDoorSensor>)

  datatype TemperatureSensorResponse =
    TemperatureSensorResponse(groupId: int, sensors: seq<GroupedTemperatureSensor>)

  /** A sensor reading, tagged with the endpoint kind it was decoded as. */
  datatype SensorDataResponse =
    | DoorData(door: DoorSensorResponse)
    | TemperatureData(temperature: TemperatureSensorResponse)

  function DecodeVehicleResponse(j: Json): Option<VehicleResponse> {
    var data :- ListField(j, "data", DecodeVehicle);
    var pagination :- ObjField(j, "pagination");
    Some(VehicleResponse(data, pagination))
  }

  function DecodeSensorListResponse(j: Json): Option<SensorListResponse> {
    var sensors :- ListField(j, "sensors", DecodeSensor);
    Some(SensorListResponse(sensors))
  }

  function DecodeDoorSensorResponse(j: Json): Option<DoorSensorResponse> {
    var groupId :- IntField(j, "groupId");
    var sensors :- ListField(j, "sensors", DecodeGroupedDoorSensor);
    Some(DoorSensorResponse(groupId, sensors))
  }

  function DecodeTemperatureSensorResponse(j: Json): Option<TemperatureSensorResponse> {
    var groupId :- IntField(j, "groupId");
    var sensors :- ListField(j, "sensors", DecodeGroupedTemperatureSensor);
    Some(TemperatureSensorResponse(groupId, sensors))
  }

  /** A door or temperature response reads its group id from `groupId` and its
      readings from a `sensors` list of the matching grouped-sensor kind. */
  lemma DoorSensorResponseDecodeExact(j: Json, d: DoorSensorResponse)
    ensures DecodeDoorSensorResponse(j) == Some(d) <==>
      (&& Field(j, "groupId") == Some(JInt(d.groupId))
       && Field(j, "sensors").Some? && Field(j, "sensors").value.JArr?
       && DecodeList(Field(j, "sensors").value.items, DecodeGroupedDoorSensor) == Some(d.sensors))
  {
  }

  lemma TemperatureSensorResponseDecodeExact(j: Json, t: TemperatureSensorResponse)
    ensures DecodeTemperatureSensorResponse(j) == Some(t) <==>
      (&& Field(j, "groupId") == Some(JInt(t.groupId))
       && Field(j, "sensors").Some? && Field(j, "sensors").value.JArr?
       && DecodeList(Field(j, "sensors").value.items, DecodeGroupedTemperatureSensor) == Some(t.sensors))
  {
  }

  /** The vehicle list response reads its vehicles from a `data` list and
      keeps the `pagination` object as it is. */
  lemma VehicleResponseDecodeExact(j: Json, r: VehicleResponse)
    ensures DecodeVehicleResponse(j) == Some(r) <==>
      (&& Field(j, "data").Some? && Field(j, "data").value.JArr?
       && DecodeList(Field(j, "data").value.items, DecodeVehicle) == Some(r.data)
       && Field(j, "pagination") == Some(JObj(r.pagination)))
  {
  }

  /** The sensor list response reads its sensors from a `sensors` list. */
  lemma SensorListResponseDecodeExact(j: Json, r: SensorListResponse)
    ensures DecodeSensorListResponse(j) == Some(r) <==>
      (&& Field(j, "sensors").Some? && Field(j, "sensors").value.JArr?
       && DecodeList(Field(j, "sensors").value.items, DecodeSensor) == Some(r.sensors))
  {
  }

  // === Sensor classification ===

  /** The endpoint for each sensor, chosen by its serial number, and its id,
      in the order of the sensor list. */
  function ParseSensorListResponse(response: SensorListResponse): (r: (seq<string>, seq<int>))
    ensures |r.0| == |response.sensors| && |r.1| == |response.sensors|
    ensures forall i :: 0 <= i < |response.sensors| ==> r.1[i] == response.sensors[i].id
    ensures forall i :: 0 <= i < |response.sensors| ==>
              (r.0[i] == Door <==> response.sensors[i].name == DoorSerial)
    ensures forall i :: 0 <= i < |response.sensors| ==> r.0[i] in {Door, Temperature}
  {
    var sensors := response.sensors;
    var serials := seq(|sensors|, i requires 0 <= i < |sensors| => sensors[i].name);
    var ids := seq(|sensors|, i requires 0 <= i < |sensors| => sensors[i].id);
    var endpoints := seq(|serials|, i requires 0 <= i < |serials| =>
                         if serials[i] == DoorSerial then Door else Temperature);
    (endpoints, ids)
  }

  /** The temperature sensor's serial, like every serial but the door's, is
      routed to the temperature endpoint. */
  lemma TemperatureSerialIsTemperature(response: SensorListResponse, i: nat)
    requires i < |response.sensors| && response.sensors[i].name == TempSerial
    ensures ParseSensorListResponse(response).0[i] == Temperature
  {
  }

  // === Fetch loop ===

  datatype Request = Post(url: string, body: Json)

  /** The body as `response.json()` hands it to Python: a JSON `null` body
      is None, like a failed request. */
  function BodyValue(answer: Option<Json>): (r: Option<Json>)
    ensures r.None? <==> answer.None? || answer.value.JNull?
    ensures r.Some? ==> r == answer
  {
    if answer.Some? && answer.value.JNull? then None else answer
  }

  /** The request for one sensor's reading: POST to v1/sensors/<endpoint>
      with the body {"sensors": [id]}. */
  function SensorRequest(endpoint: string, id: int): Request {
    Post(GetRequestUrl([V1, Sensors, endpoint]), JObj(map["sensors" := JArr([JInt(id)])]))
  }

  /** One entry per sensor, in order: the body on success, None on failure
      or when the body is JSON null. */
  method FetchSensorData(endpoints: seq<string>, ids: seq<int>, post: Request -> Option<Json>)
    returns (responses: seq<Option<Json>>)
    ensures |responses| == Min(|endpoints|, |ids|)
    ensures forall i :: 0 <= i < |responses| ==>
              responses[i] == BodyValue(post(SensorRequest(endpoints[i], ids[i])))
  {
    responses := [];
    for i := 0 to Min(|endpoints|, |ids|)
      invariant |responses| == i
      invariant forall k :: 0 <= k < i ==> responses[k] == BodyValue(post(SensorRequest(endpoints[k], ids[k])))
    {
      responses := responses + [BodyValue(post(SensorRequest(endpoints[i], ids[i])))];
    }
  }

  // === Filter loop ===

  /** Decodes a present body as the kind its endpoint names. */
  function DecodeSensorData(j: Json, endpoint: string): (r: Option<SensorDataResponse>)
    ensures r.Some? ==> (r.value.DoorData? <==> endpoint == Door)
  {
    if endpoint == Door then
      var d :- DecodeDoorSensorResponse(j);
      Some(DoorData(d))
    else
      var t :- DecodeTemperatureSensorResponse(j);
      Some(TemperatureData(t))
  }

  /** How many of the responses are present. */
  function CountPresent(responses: seq<Option<Json>>): (c: nat)
    ensures c <= |responses|
    ensures c == |PresentPositions(responses)|
  {
    if responses == [] then 0
    else
      PresentPositionsSnoc(responses);
      CountPresent(responses[..|responses| - 1]) + (if responses[|responses| - 1].Some? then 1 else 0)
  }

  /** The positions that hold a present response. */
  function PresentPositions(responses: seq<Option<Json>>): set<nat> {
    set i: nat | i < |responses| && responses[i].Some?
  }

  lemma PresentPositionsSnoc(responses: seq<Option<Json>>)
    requires |responses| > 0
    ensures var n := |responses| - 1;
      PresentPositions(responses)
        == PresentPositions(responses[..n]) + (if responses[n].Some? then {n} else {})
    ensures |responses| - 1 !in PresentPositions(responses[..|responses| - 1])
  {
  }

  /** The first n responses with absent ones dropped and present ones decoded;
      a present body that does not decode fails, naming its position. */
  function Filtered(responses: seq<Option<Json>>, endpoints: seq<string>, n: nat)
    : Result<seq<SensorDataResponse>, nat>
    requires n <= |responses| && n <= |endpoints|
  {
    if n == 0 then Success([])
    else
      var kept :- Filtered(responses, endpoints, n - 1);
      match responses[n - 1]
      case None => Success(kept)
      case Some(j) =>
        match DecodeSensorData(j, endpoints[n - 1])
        case None => Failure(n - 1)
        case Some(d) => Success(kept + [d])
  }

  method FilterResponses(responses: seq<Option<Json>>, endpoints: seq<string>)
    returns (r: Result<seq<SensorDataResponse>, nat>)
    ensures r == Filtered(responses, endpoints, Min(|responses|, |endpoints|))
  {
    var output: seq<SensorDataResponse> := [];
    for i := 0 to Min(|responses|, |endpoints|)
      invariant Filtered(responses, endpoints, i) == Success(output)
    {
      if responses[i].Some? {
        var decoded := DecodeSensorData(responses[i].value, endpoints[i]);
        if decoded.None? {
          FilteredFailureStays(responses, endpoints, i + 1, Min(|responses|, |endpoints|));
          return Failure(i);
        }
        output := output + [decoded.value];
      }
    }
    r := Success(output);
  }

  /** Once a prefix fails, every longer prefix fails the same way. */
  lemma {:induction false} FilteredFailureStays(responses: seq<Option<Json>>, endpoints: seq<string>,
                                                m: nat, n: nat)
    requires m <= n <= |responses| && n <= |endpoints|
    requires Filtered(responses, endpoints, m).Failure?
    ensures Filtered(responses, endpoints, n) == Filtered(responses, endpoints, m)
  {
    if n > m {
      FilteredFailureStays(responses, endpoints, m, n - 1);
    }
  }

  /** Dropped, not left as gaps: the output has one entry per present response. */
  lemma {:induction false} FilteredLength(responses: seq<Option<Json>>, endpoints: seq<string>, n: nat)
    requires n <= |responses| && n <= |endpoints|
    requires Filtered(responses, endpoints, n).Success?
    ensures |Filtered(responses, endpoints, n).value| == CountPresent(responses[..n])
  {
    if n > 0 {
      FilteredLength(responses, endpoints, n - 1);
      assert responses[..n][..n - 1] == responses[..n - 1];
    }
  }

  /** Order is kept: the present response at position i lands at the position
      given by the number of present responses before it, decoded as the
      kind of its own endpoint. */
  lemma {:induction false} FilteredPlacement(responses: seq<Option<Json>>, endpoints: seq<string>,
                                             n: nat, i: nat)
    requires n <= |responses| && n <= |endpoints|
    requires Filtered(responses, endpoints, n).Success?
    requires i < n && responses[i].Some?
    ensures CountPresent(responses[..i]) < |Filtered(responses, endpoints, n).value|
    ensures DecodeSensorData(responses[i].value, endpoints[i]).Some?
    ensures Filtered(responses, endpoints, n).value[CountPresent(responses[..i])]
              == DecodeSensorData(responses[i].value, endpoints[i]).value
  {
    FilteredLength(responses, endpoints, n - 1);
    if i < n - 1 {
      FilteredPlacement(responses, endpoints, n - 1, i);
    } else {
      assert responses[..n - 1] == responses[..i];
    }
  }

  /** Filtering fails exactly when some present body does not decode as its
      endpoint's kind, and then it names the first such position. */
  lemma {:induction false} FilteredFailure(responses: seq<Option<Json>>, endpoints: seq<string>, n: nat)
    requires n <= |responses| && n <= |endpoints|
    ensures var r := Filtered(responses, endpoints, n);
      && (r.Failure? <==> exists i :: 0 <= i < n && responses[i].Some?
                                       && DecodeSensorData(responses[i].value, endpoints[i]).None?)
      && (r.Failure? ==> r.error < n && responses[r.error].Some?
                         && DecodeSensorData(responses[r.error].value, endpoints[r.error]).None?
                         && forall i :: 0 <= i < r.error && responses[i].Some? ==>
                              DecodeSensorData(responses[i].value, endpoints[i]).Some?)
  {
    if n > 0 {
      FilteredFailure(responses, endpoints, n - 1);
    }
  }

  /** An absent response shifts every later one left: a present response after
      a dropped one lands before its own sensor's position. */
  lemma CountPresentAfterGap(responses: seq<Option<Json>>, i: nat, j: nat)
    requires j < i <= |responses| && responses[j].None?
    ensures CountPresent(responses[..i]) < i
  {
    CountPresentMissing(responses[..i], j);
  }

  lemma {:induction false} CountPresentMissing(responses: seq<Option<Json>>, j: nat)
    requires j < |responses| && responses[j].None?
    ensures CountPresent(responses) < |responses|
  {
    var last := |responses| - 1;
    if j < last {
      CountPresentMissing(responses[..last], j);
    }
  }

  // === get_sensor_data ===

  /** The responses the fetch loop collects for a sensor list. */
  function FetchedResponses(endpoints: seq<string>, ids: seq<int>, post: Request -> Option<Json>)
    : seq<Option<Json>>
  {
    seq(Min(|endpoints|, |ids|), i requires 0 <= i < Min(|endpoints|, |ids|) =>
      BodyValue(post(SensorRequest(endpoints[i], ids[i]))))
  }

  /** What get_sensor_data returns: the filtered readings, or the position of
      the first body that does not decode. */
  function SensorData(response: SensorListResponse, post: Request -> Option<Json>)
    : Result<seq<SensorDataResponse>, nat>
  {
    var (endpoints, ids) := ParseSensorListResponse(response);
    var responses := FetchedResponses(endpoints, ids, post);
    Filtered(responses, endpoints, |responses|)
  }

  /** When every request fails or answers null, get_sensor_data returns an
      empty list rather than an error. */
  lemma AllFetchesFailNoReadings(response: SensorListResponse, post: Request -> Option<Json>)
    requires forall q :: BodyValue(post(q)).None?
    ensures SensorData(response, post) == Success([])
  {
    var (endpoints, ids) := ParseSensorListResponse(response);
    var responses := FetchedResponses(endpoints, ids, post);
    forall i | 0 <= i < |responses| ensures responses[i].None? {
      assert responses[i] == BodyValue(post(SensorRequest(endpoints[i], ids[i])));
    }
    FilteredFailure(responses, endpoints, |responses|);
    FilteredLength(responses, endpoints, |responses|);
    AllAbsentCountsZero(responses);
    assert responses[..|responses|] == responses;
  }

  lemma {:induction false} AllAbsentCountsZero(responses: seq<Option<Json>>)
    requires forall i :: 0 <= i < |responses| ==> responses[i].None?
    ensures CountPresent(responses) == 0
  {
    if responses != [] {
      AllAbsentCountsZero(responses[..|responses| - 1]);
    }
  }

  method GetSensorData(response: SensorListResponse, post: Request -> Option<Json>)
    returns (r: Result<seq<SensorDataResponse>, nat>)
    ensures r == SensorData(response, post)
  {
    var (endpoints, ids) := ParseSensorListResponse(response);
    var responses := FetchSensorData(endpoints, ids, post);
    assert responses == FetchedResponses(endpoints, ids, post);
    r := FilterResponses(responses, endpoints);
  }
}

=== FILE: constants.dfy ===
/** Endpoint names and the known sensor serial numbers of the fleet API. */
module Constants {
  const BaseUrl: string := "https://api.samsara.com"

  const Fleet: string := "fleet"
  const V1: string := "v1"
  const Vehicles: string := "vehicles"
  const Sensors: string := "sensors"
  const List: string := "list"
  const Temperature: string := "temperature"
  const Door: string := "door"

  /** Serial number of the temperature sensor on the vehicle. */
  const TempSerial: string := "W7NP-RJ8-6VE"
  /** Serial number of the door sensor; it is the only one routed to the door endpoint. */
  const DoorSerial: string := "WM5D-K78-KN7"
}

=== FILE: data_model.dfy ===
/** The typed payload records of the fleet API and their strict decoders.
    Each decoder reads a field under its alias when it has one, fails when
    a required field is absent or has the wrong type, gives "" for an
    absent optional string, and ignores keys it does not declare. */
module DataModel {
  import opened Wrappers
  import opened Text
  import opened Json

  // === Vehicle request response records ===

  datatype TemperatureSensor = TemperatureSensor(id: string, name: string, mac: string)

  datatype Area = Area(position: string, temperatureSensor: seq<TemperatureSensor>)

  datatype SensorConfiguration = SensorConfiguration(areas: seq<Area>)

  datatype Gateway = Gateway(serial: string, model: string)

  datatype ExternalIds = ExternalIds(serial: string, model: string)

  datatype Attribute = Attribute(id: string, name: string, stringValues: seq<string>)

  /** The three optional strings hold None when the payload has null. */
  datatype Vehicle = Vehicle(
    id: string, name: string, make: string, model: string, year: string,
    serial: string, vin: string,
    licensePlate: Option<string>, notes: Option<string>,
    harshAccelerationSettingType: Option<string>,
    vehicleRegulationMode: string, createdAtTime: string, updatedAtTime: string,
    attributes: seq<Attribute>, externalIds: ExternalIds, gateway: Gateway,
    sensorConfiguration: SensorConfiguration)

  // === Sensor request response records ===

  datatype Sensor = Sensor(id: int, name: string, macAddress: string)

  datatype GroupedSensor = GroupedSensor(id: int, name: string, vehicleId: int)

  /** A grouped sensor extended with its temperature reading (milli-degrees Celsius). */
  datatype GroupedTemperatureSensor = GroupedTemperatureSensor(
    base: GroupedSensor, ambientTemperature: int, ambientTemperatureTime: Timestamp)

  /** A grouped sensor extended with its door reading. */
  datatype GroupedDoorSensor = GroupedDoorSensor(
    base: GroupedSensor, doorClosed: bool, doorStatusTime: Timestamp)

  // === Decoders ===

  function DecodeTemperatureSensor(j: Json): Option<TemperatureSensor> {
    var id :- StrField(j, "id");
    var name :- StrField(j, "name");
    var mac :- StrField(j, "mac");
    Some(TemperatureSensor(id, name, mac))
  }

  function DecodeArea(j: Json): Option<Area> {
    var position :- StrField(j, "position");
    var sensors :- ListField(j, "temperatureSensors", DecodeTemperatureSensor);
    Some(Area(position, sensors))
  }

  function DecodeSensorConfiguration(j: Json): Option<SensorConfiguration> {
    var areas :- ListField(j, "areas", DecodeArea);
    Some(SensorConfiguration(areas))
  }

  function DecodeGateway(j: Json): Option<Gateway> {
    var serial :- StrField(j, "serial");
    var model :- StrField(j, "model");
    Some(Gateway(serial, model))
  }

  function DecodeExternalIds(j: Json): Option<ExternalIds> {
    var serial :- StrField(j, "samsara.serial");
    var model :- StrField(j, "samsara.vin");
    Some(ExternalIds(serial, model))
  }

  function DecodeAttribute(j: Json): Option<Attribute> {
    var id :- StrField(j, "id");
    var name :- StrField(j, "name");
    var values :- ListField(j, "stringValues", StrItem);
    Some(Attribute(id, name, values))
  }

  /** The declared Vehicle fields that have no default. */
  const VehicleRequiredKeys: set<string> := {
    "id", "name", "make", "model", "year", "serial", "vin",
    "vehicleRegulationMode", "createdAtTime", "updatedAtTime",
    "attributes", "externalIds", "gateway", "sensorConfiguration"
  }

  /** Every declared field is present (or, for the three optional strings,
      absent or null) and holds a value of its declared type. */
  predicate VehicleFieldsValid(j: Json) {
    && j.JObj?
    && StrField(j, "id").Some? && StrField(j, "name").Some?
    && StrField(j, "make").Some? && StrField(j, "model").Some?
    && StrField(j, "year").Some? && StrField(j, "serial").Some? && StrField(j, "vin").Some?
    && OptStrField(j, "licensePlate").Some? && OptStrField(j, "notes").Some?
    && OptStrField(j, "harshAccelerationSettingType").Some?
    && StrField(j, "vehicleRegulationMode").Some?
    && StrField(j, "createdAtTime").Some? && StrField(j, "updatedAtTime").Some?
    && ListField(j, "attributes", DecodeAttribute).Some?
    && Field(j, "externalIds").Some? && DecodeExternalIds(Field(j, "externalIds").value).Some?
    && Field(j, "gateway").Some? && DecodeGateway(Field(j, "gateway").value).Some?
    && Field(j, "sensorConfiguration").Some?
    && DecodeSensorConfiguration(Field(j, "sensorConfiguration").value).Some?
  }

  /** Vehicle validation: all fields are checked, and any one failing rejects
      the whole payload. */
  function DecodeVehicle(j: Json): Option<Vehicle> {
    if !VehicleFieldsValid(j) then None
    else
      Some(Vehicle(
        StrField(j, "id").value, StrField(j, "name").value,
        StrField(j, "make").value, StrField(j, "model").value,
        StrField(j, "year").value, StrField(j, "serial").value, StrField(j, "vin").value,
        OptStrField(j, "licensePlate").value, OptStrField(j, "notes").value,
        OptStrField(j, "harshAccelerationSettingType").value,
        StrField(j, "vehicleRegulationMode").value,
        StrField(j, "createdAtTime").value, StrField(j, "updatedAtTime").value,
        ListField(j, "attributes", DecodeAttribute).value,
        DecodeExternalIds(Field(j, "externalIds").value).value,
        DecodeGateway(Field(j, "gateway").value).value,
        DecodeSensorConfiguration(Field(j, "sensorConfiguration").value).value))
  }

  function DecodeSensor(j: Json): Option<Sensor> {
    var id :- IntField(j, "id");
    var name :- StrField(j, "name");
    var mac :- StrField(j, "macAddress");
    Some(Sensor(id, name, mac))
  }

  function DecodeGroupedSensor(j: Json): Option<GroupedSensor> {
    var id :- IntField(j, "id");
    var name :- StrField(j, "name");
    var vehicleId :- IntField(j, "vehicleId");
    Some(GroupedSensor(id, name, vehicleId))
  }

  function DecodeGroupedTemperatureSensor(j: Json): Option<GroupedTemperatureSensor> {
    var base :- DecodeGroupedSensor(j);
    var temperature :- IntField(j, "ambientTemperature");
    var time :- TimeField(j, "ambientTemperatureTime");
    Some(GroupedTemperatureSensor(base, temperature, time))
  }

  function DecodeGroupedDoorSensor(j: Json): Option<GroupedDoorSensor> {
    var base :- DecodeGroupedSensor(j);
    var closed :- BoolField(j, "doorClosed");
    var time :- TimeField(j, "doorStatusTime");
    Some(GroupedDoorSensor(base, closed, time))
  }

  // === Encoders: the payload each record is decoded from ===

  function EncodeOptStr(o: Option<string>): Json {
    match o
    case None => JNull
    case Some(s) => JStr(s)
  }

  function EncodeStr(s: string): Json {
    JStr(s)
  }

  function EncodeTemperatureSensor(t: TemperatureSensor): Json {
    JObj(map["id" := JStr(t.id), "name" := JStr(t.name), "mac" := JStr(t.mac)])
  }

  function EncodeArea(a: Area): Json {
    JObj(map["position" := JStr(a.position),
             "temperatureSensors" := JArr(EncodeList(a.temperatureSensor, EncodeTemperatureSensor))])
  }

  function EncodeSensorConfiguration(c: SensorConfiguration): Json {
    JObj(map["areas" := JArr(EncodeList(c.areas, EncodeArea))])
  }

  function EncodeGateway(g: Gateway): Json {
    JObj(map["serial" := JStr(g.serial), "model" := JStr(g.model)])
  }

  function EncodeExternalIds(e: ExternalIds): Json {
    JObj(map["samsara.serial" := JStr(e.serial), "samsara.vin" := JStr(e.model)])
  }

  function EncodeAttribute(a: Attribute): Json {
    JObj(map["id" := JStr(a.id), "name" := JStr(a.name),
             "stringValues" := JArr(EncodeList(a.stringValues, EncodeStr))])
  }

  function EncodeVehicle(v: Vehicle): Json {
    JObj(map[
      "id" := JStr(v.id), "name" := JStr(v.name), "make" := JStr(v.make),
      "model" := JStr(v.model), "year" := JStr(v.year), "serial" := JStr(v.serial),
      "vin" := JStr(v.vin),
      "licensePlate" := EncodeOptStr(v.licensePlate),
      "notes" := EncodeOptStr(v.notes),
      "harshAccelerationSettingType" := EncodeOptStr(v.harshAccelerationSettingType),
      "vehicleRegulationMode" := JStr(v.vehicleRegulationMode),
      "createdAtTime" := JStr(v.createdAtTime), "updatedAtTime" := JStr(v.updatedAtTime),
      "attributes" := JArr(EncodeList(v.attributes, EncodeAttribute)),
      "externalIds" := EncodeExternalIds(v.externalIds),
      "gateway" := EncodeGateway(v.gateway),
      "sensorConfiguration" := EncodeSensorConfiguration(v.sensorConfiguration)])
  }

  function EncodeSensor(s: Sensor): Json {
    JObj(map["id" := JInt(s.id), "name" := JStr(s.name), "macAddress" := JStr(s.macAddress)])
  }

  function GroupedSensorFields(g: GroupedSensor): map<string, Json> {
    map["id" := JInt(g.id), "name" := JStr(g.name), "vehicleId" := JInt(g.vehicleId)]
  }

  function EncodeGroupedTemperatureSensor(t: GroupedTemperatureSensor): Json {
    JObj(GroupedSensorFields(t.base)["ambientTemperature" := JInt(t.ambientTemperature)]
           ["ambientTemperatureTime" := JTime(t.ambientTemperatureTime)])
  }

  function EncodeGroupedDoorSensor(d: GroupedDoorSensor): Json {
    JObj(GroupedSensorFields(d.base)["doorClosed" := JBool(d.doorClosed)]
           ["doorStatusTime" := JTime(d.doorStatusTime)])
  }

  // === Round trips ===

  lemma TemperatureSensorRoundTrip(t: TemperatureSensor)
    ensures DecodeTemperatureSensor(EncodeTemperatureSensor(t)) == Some(t)
  {
  }

  lemma AreaRoundTrip(a: Area)
    ensures DecodeArea(EncodeArea(a)) == Some(a)
  {
    forall t ensures DecodeTemperatureSensor(EncodeTemperatureSensor(t)) == Some(t) {
      TemperatureSensorRoundTrip(t);
    }
    DecodeEncodedList(a.temperatureSensor, EncodeTemperatureSensor, DecodeTemperatureSensor);
  }

  lemma SensorConfigurationRoundTrip(c: SensorConfiguration)
    ensures DecodeSensorConfiguration(EncodeSensorConfiguration(c)) == Some(c)
  {
    forall a ensures DecodeArea(EncodeArea(a)) == Some(a) {
      AreaRoundTrip(a);
    }
    DecodeEncodedList(c.areas, EncodeArea, DecodeArea);
  }

  lemma AttributeRoundTrip(a: Attribute)
    ensures DecodeAttribute(EncodeAttribute(a)) == Some(a)
  {
    DecodeEncodedList(a.stringValues, EncodeStr, StrItem);
  }

  /** The fields a decoded Vehicle is made of, read off a payload. */
  predicate VehicleFieldsAre(j: Json, v: Vehicle) {
    && j.JObj?
    && StrField(j, "id") == Some(v.id) && StrField(j, "name") == Some(v.name)
    && StrField(j, "make") == Some(v.make) && StrField(j, "model") == Some(v.model)
    && StrField(j, "year") == Some(v.year) && StrField(j, "serial") == Some(v.serial)
    && StrField(j, "vin") == Some(v.vin)
    && OptStrField(j, "licensePlate") == Some(v.licensePlate)
    && OptStrField(j, "notes") == Some(v.notes)
    && OptStrField(j, "harshAccelerationSettingType") == Some(v.harshAccelerationSettingType)
    && StrField(j, "vehicleRegulationMode") == Some(v.vehicleRegulationMode)
    && StrField(j, "createdAtTime") == Some(v.createdAtTime)
    && StrField(j, "updatedAtTime") == Some(v.updatedAtTime)
    && ListField(j, "attributes", DecodeAttribute) == Some(v.attributes)
    && Field(j, "externalIds").Some? && DecodeExternalIds(Field(j, "externalIds").value) == Some(v.externalIds)
    && Field(j, "gateway").Some? && DecodeGateway(Field(j, "gateway").value) == Some(v.gateway)
    && Field(j, "sensorConfiguration").Some?
    && DecodeSensorConfiguration(Field(j, "sensorConfiguration").value) == Some(v.sensorConfiguration)
  }

  /** A Vehicle decodes exactly from payloads whose declared fields hold its values. */
  lemma VehicleDecodeExact(j: Json, v: Vehicle)
    ensures DecodeVehicle(j) == Some(v) <==> VehicleFieldsAre(j, v)
  {
  }

  lemma EncodedVehicleNames(v: Vehicle)
    ensures var j := EncodeVehicle(v);
      && StrField(j, "id") == Some(v.id) && StrField(j, "name") == Some(v.name)
      && StrField(j, "make") == Some(v.make) && StrField(j, "model") == Some(v.model)
  {
  }

  lemma EncodedVehicleIdentity(v: Vehicle)
    ensures var j := EncodeVehicle(v);
      && StrField(j, "year") == Some(v.year) && StrField(j, "serial") == Some(v.serial)
      && StrField(j, "vin") == Some(v.vin)
  {
  }

  lemma EncodedVehicleTimes(v: Vehicle)
    ensures var j := EncodeVehicle(v);
      && StrField(j, "vehicleRegulationMode") == Some(v.vehicleRegulationMode)
      && StrField(j, "createdAtTime") == Some(v.createdAtTime)
      && StrField(j, "updatedAtTime") == Some(v.updatedAtTime)
  {
  }

  lemma EncodedVehicleOptionals(v: Vehicle)
    ensures var j := EncodeVehicle(v);
      && OptStrField(j, "licensePlate") == Some(v.licensePlate)
      && OptStrField(j, "notes") == Some(v.notes)
      && OptStrField(j, "harshAccelerationSettingType") == Some(v.harshAccelerationSettingType)
  {
  }

  lemma EncodedVehicleLists(v: Vehicle)
    ensures ListField(EncodeVehicle(v), "attributes", DecodeAttribute) == Some(v.attributes)
  {
    forall a ensures DecodeAttribute(EncodeAttribute(a)) == Some(a) {
      AttributeRoundTrip(a);
    }
    DecodeEncodedList(v.attributes, EncodeAttribute, DecodeAttribute);
    assert Field(EncodeVehicle(v), "attributes") == Some(JArr(EncodeList(v.attributes, EncodeAttribute)));
  }

  lemma EncodedVehicleNested(v: Vehicle)
    ensures var j := EncodeVehicle(v);
      && Field(j, "externalIds").Some? && DecodeExternalIds(Field(j, "externalIds").value) == Some(v.externalIds)
      && Field(j, "gateway").Some? && DecodeGateway(Field(j, "gateway").value) == Some(v.gateway)
      && Field(j, "sensorConfiguration").Some?
      && DecodeSensorConfiguration(Field(j, "sensorConfiguration").value) == Some(v.sensorConfiguration)
  {
    SensorConfigurationRoundTrip(v.sensorConfiguration);
    assert Field(EncodeVehicle(v), "externalIds") == Some(EncodeExternalIds(v.externalIds));
    assert Field(EncodeVehicle(v), "gateway") == Some(EncodeGateway(v.gateway));
    assert Field(EncodeVehicle(v), "sensorConfiguration") == Some(EncodeSensorConfiguration(v.sensorConfiguration));
  }

  lemma EncodedVehicleFields(v: Vehicle)
    ensures VehicleFieldsAre(EncodeVehicle(v), v)
  {
    EncodedVehicleLists(v);
    EncodedVehicleNames(v);
    EncodedVehicleIdentity(v);
    EncodedVehicleTimes(v);
    EncodedVehicleOptionals(v);
    EncodedVehicleNested(v);
  }

  /** Decoding undoes encoding, nested lists and optional strings included. */
  lemma VehicleRoundTrip(v: Vehicle)
    ensures DecodeVehicle(EncodeVehicle(v)) == Some(v)
  {
    EncodedVehicleFields(v);
    VehicleDecodeExact(EncodeVehicle(v), v);
  }

  lemma SensorRoundTrip(s: Sensor)
    ensures DecodeSensor(EncodeSensor(s)) == Some(s)
  {
  }

  lemma GroupedTemperatureSensorRoundTrip(t: GroupedTemperatureSensor)
    ensures DecodeGroupedTemperatureSensor(EncodeGroupedTemperatureSensor(t)) == Some(t)
  {
  }

  lemma GroupedDoorSensorRoundTrip(d: GroupedDoorSensor)
    ensures DecodeGroupedDoorSensor(EncodeGroupedDoorSensor(d)) == Some(d)
  {
  }

  // === Alias, required and default rules ===

  /** A Sensor is read from `id` (an int), `name` and `macAddress` (strings),
      and from nothing else. */
  lemma SensorDecodeExact(j: Json, s: Sensor)
    ensures DecodeSensor(j) == Some(s) <==>
      (&& Field(j, "id") == Some(JInt(s.id))
       && Field(j, "name") == Some(JStr(s.name))
       && Field(j, "macAddress") == Some(JStr(s.macAddress)))
  {
  }

  /** ExternalIds reads its serial from `samsara.serial` and its model from `samsara.vin`. */
  lemma ExternalIdsDecodeExact(j: Json, e: ExternalIds)
    ensures DecodeExternalIds(j) == Some(e) <==>
      (Field(j, "samsara.serial") == Some(JStr(e.serial)) && Field(j, "samsara.vin") == Some(JStr(e.model)))
  {
  }

  /** Area reads its sensor list from `temperatureSensors`. */
  lemma AreaDecodeExact(j: Json, a: Area)
    ensures DecodeArea(j) == Some(a) <==>
      (&& Field(j, "position") == Some(JStr(a.position))
       && Field(j, "temperatureSensors").Some?
       && Field(j, "temperatureSensors").value.JArr?
       && DecodeList(Field(j, "temperatureSensors").value.items, DecodeTemperatureSensor)
            == Some(a.temperatureSensor))
  {
  }

  /** A Vehicle payload missing any required key does not decode. */
  lemma VehicleRequiresKey(j: Json, key: string)
    requires key in VehicleRequiredKeys
    requires Field(j, key).None?
    ensures DecodeVehicle(j).None?
  {
  }

  /** The three optional strings default to "" when their keys are absent. */
  lemma VehicleOptionalDefaults(j: Json)
    requires DecodeVehicle(j).Some?
    ensures "licensePlate" !in j.fields ==> DecodeVehicle(j).value.licensePlate == Some("")
    ensures "notes" !in j.fields ==> DecodeVehicle(j).value.notes == Some("")
    ensures "harshAccelerationSettingType" !in j.fields ==>
              DecodeVehicle(j).value.harshAccelerationSettingType == Some("")
  {
  }

  /** A grouped temperature sensor is read from `id`, `name`, `vehicleId`,
      `ambientTemperature` (an int) and `ambientTemperatureTime`. */
  lemma GroupedTemperatureSensorDecodeExact(j: Json, t: GroupedTemperatureSensor)
    ensures DecodeGroupedTemperatureSensor(j) == Some(t) <==>
      (&& Field(j, "id") == Some(JInt(t.base.id))
       && Field(j, "name") == Some(JStr(t.base.name))
       && Field(j, "vehicleId") == Some(JInt(t.base.vehicleId))
       && Field(j, "ambientTemperature") == Some(JInt(t.ambientTemperature))
       && Field(j, "ambientTemperatureTime") == Some(JTime(t.ambientTemperatureTime)))
  {
  }

  /** A grouped door sensor is read from `id`, `name`, `vehicleId`,
      `doorClosed` (a bool) and `doorStatusTime`. */
  lemma GroupedDoorSensorDecodeExact(j: Json, d: GroupedDoorSensor)
    ensures DecodeGroupedDoorSensor(j) == Some(d) <==>
      (&& Field(j, "id") == Some(JInt(d.base.id))
       && Field(j, "name") == Some(JStr(d.base.name))
       && Field(j, "vehicleId") == Some(JInt(d.base.vehicleId))
       && Field(j, "doorClosed") == Some(JBool(d.doorClosed))
       && Field(j, "doorStatusTime") == Some(JTime(d.doorStatusTime)))
  {
  }
}

=== FILE: get_data_main.dfy ===
/** The ingestion run: compose one warehouse row from a vehicle and its
    sensor readings, merge it into the store, and abort before any merge
    when a required response is absent or malformed. The store file is the
    field `store` of a Warehouse (None when the file does not exist). */
module GetDataMain {
  import opened Wrappers
  import opened Text
  import opened Json
  import opened DataModel
  import opened Constants
  import opened ApiHandler
  import opened Table

  // === Column labels ===

  /** The identity fields each sensor contributes. */
  datatype SensorField = Id | Name | Mac | Kind

  /** The warehouse columns; ColumnName gives each its label. */
  datatype Column =
    | Make | Model | Year | GatewaySerial
    | SensorColumn(position: nat, field: SensorField)
    | AmbientTemp | AmbientTempTimestamp | DoorState | DoorStateTimestamp

  function FieldName(f: SensorField): string {
    match f
    case Id => "ID"
    case Name => "Name"
    case Mac => "MAC"
    case Kind => "Type"
  }

  /** The column label: "Sensor {i} ID" and so on for a sensor's fields. */
  function ColumnName(c: Column): (s: string)
    ensures |s| > 0
  {
    match c
    case Make => "Make"
    case Model => "Model"
    case Year => "Year"
    case GatewaySerial => "Gateway SN"
    case SensorColumn(i, f) => "Sensor " + NatText(i) + " " + FieldName(f)
    case AmbientTemp => "Ambient Temp."
    case AmbientTempTimestamp => "Ambient Temp. Timestamp"
    case DoorState => "Door State"
    case DoorStateTimestamp => "Door State Timestamp"
  }

  /** Different columns have different labels, so the frame never has two
      columns with the same name. */
  lemma ColumnNameInjective(a: Column, b: Column)
    requires ColumnName(a) == ColumnName(b)
    ensures a == b
  {
    if a.SensorColumn? && b.SensorColumn? {
      SensorColumnNameInjective(a.position, a.field, b.position, b.field);
    } else {
      var s, t := ColumnName(a), ColumnName(b);
      assert s[0] == t[0] && |s| == |t|;
    }
  }

  lemma SensorColumnNameInjective(i: nat, f: SensorField, j: nat, g: SensorField)
    requires ColumnName(SensorColumn(i, f)) == ColumnName(SensorColumn(j, g))
    ensures i == j && f == g
  {
    LabelUnique("Sensor ", i, j, FieldName(f), FieldName(g));
    FieldNameInjective(f, g);
  }

  lemma FieldNameInjective(f: SensorField, g: SensorField)
    requires FieldName(f) == FieldName(g)
    ensures f == g
  {
    assert FieldName(f)[0] == FieldName(g)[0];
  }

  const VehicleColumns: seq<Column> := [Make, Model, Year, GatewaySerial]

  // === Unit conversion ===

  /** Milli-degrees Celsius to degrees Fahrenheit: m * 0.001 * 9/5 + 32. */
  function Fahrenheit(milliCelsius: int): real {
    milliCelsius as real * 0.001 * (9.0 / 5.0) + 32.0
  }

  /** The conversion back: Fahrenheit loses nothing. */
  lemma FahrenheitInverse(m: int)
    ensures (Fahrenheit(m) - 32.0) * 5000.0 / 9.0 == m as real
    ensures Fahrenheit(20000) == 68.0 && Fahrenheit(0) == 32.0
  {
  }

  // === Row composer ===

  /** A reading the composer can use: its first grouped sensor exists. */
  predicate HasReading(r: SensorDataResponse) {
    match r
    case TemperatureData(t) => |t.sensors| > 0
    case DoorData(d) => |d.sensors| > 0
  }

  /** The first of the first n readings without a grouped sensor. */
  function FirstWithoutReading(data: seq<SensorDataResponse>, n: nat): (r: Option<nat>)
    requires n <= |data|
    ensures r.Some? ==> r.value < n && !HasReading(data[r.value])
  {
    if n == 0 then None
    else
      var earlier := FirstWithoutReading(data, n - 1);
      if earlier.Some? then earlier
      else if !HasReading(data[n - 1]) then Some(n - 1)
      else None
  }

  /** None exactly when every one of the first n readings has a grouped
      sensor; otherwise every reading before the one found has one. */
  lemma {:induction false} FirstWithoutReadingSpec(data: seq<SensorDataResponse>, n: nat)
    requires n <= |data|
    ensures FirstWithoutReading(data, n).None? <==> forall i :: 0 <= i < n ==> HasReading(data[i])
    ensures FirstWithoutReading(data, n).Some? ==>
              forall i :: 0 <= i < FirstWithoutReading(data, n).value ==> HasReading(data[i])
  {
    if n > 0 {
      FirstWithoutReadingSpec(data, n - 1);
    }
  }

  lemma {:induction false} FirstWithoutReadingAt(data: seq<SensorDataResponse>, i: nat, n: nat)
    requires i < n <= |data|
    requires FirstWithoutReading(data, i).None?
    requires !HasReading(data[i])
    ensures FirstWithoutReading(data, n) == Some(i)
  {
    if n > i + 1 {
      FirstWithoutReadingAt(data, i, n - 1);
    }
  }

  /** The last of the first n readings that is a door reading (door) or a
      temperature reading (!door). */
  function LastOfKind(data: seq<SensorDataResponse>, n: nat, door: bool): (r: Option<nat>)
    requires n <= |data|
    ensures r.Some? ==> r.value < n && data[r.value].DoorData? == door
  {
    if n == 0 then None
    else if data[n - 1].DoorData? == door then Some(n - 1)
    else LastOfKind(data, n - 1, door)
  }

  /** It is the last one: no later reading among the first n is of that
      kind; and None exactly when none of them is. */
  lemma {:induction false} LastOfKindSpec(data: seq<SensorDataResponse>, n: nat, door: bool)
    requires n <= |data|
    ensures LastOfKind(data, n, door).Some? ==>
              forall k :: LastOfKind(data, n, door).value < k < n ==> data[k].DoorData? != door
    ensures LastOfKind(data, n, door).None? <==> forall k :: 0 <= k < n ==> data[k].DoorData? != door
  {
    if n > 0 {
      LastOfKindSpec(data, n - 1, door);
    }
  }

  /** The label the "Type" column gets for a reading. */
  function KindName(reading: SensorDataResponse): string {
    if reading.TemperatureData? then "Temperature" else "Door"
  }

  /** The column a reading's value goes to: "Door State" for a door
      reading, "Ambient Temp." for a temperature reading. */
  function ValueColumn(door: bool): Column {
    if door then DoorState else AmbientTemp
  }

  /** The column a reading's time goes to. */
  function TimeColumn(door: bool): Column {
    if door then DoorStateTimestamp else AmbientTempTimestamp
  }

  /** The value of a reading's first grouped sensor: the door state, or
      the ambient temperature in degrees Fahrenheit. */
  function ValueCell(reading: SensorDataResponse): Cell
    requires HasReading(reading)
  {
    match reading
    case TemperatureData(t) => Real(Fahrenheit(t.sensors[0].ambientTemperature))
    case DoorData(r) => Bool(r.sensors[0].doorClosed)
  }

  /** The time of a reading's first grouped sensor, to the minute. */
  function TimeCell(reading: SensorDataResponse): Cell
    requires HasReading(reading)
  {
    match reading
    case TemperatureData(t) => Str(FormatMinute(t.sensors[0].ambientTemperatureTime))
    case DoorData(r) => Str(FormatMinute(r.sensors[0].doorStatusTime))
  }

  /** The (column, cell) writes one loop iteration makes for sensor i and
      its paired reading, in the order made: the identity entries, then,
      when the reading's first grouped sensor exists, its value and time.
      (Without one the iteration raises right after the "Type" entry.) */
  function PairWrites(i: nat, sensor: Sensor, reading: SensorDataResponse): (w: seq<(Column, Cell)>)
    ensures |w| == if HasReading(reading) then 6 else 4
  {
    [(SensorColumn(i, Id), Tuple1(Int(sensor.id))),
     (SensorColumn(i, Name), Tuple1(Str(sensor.name))),
     (SensorColumn(i, Mac), Tuple1(Str(sensor.macAddress))),
     (SensorColumn(i, Kind), Tuple1(Str(KindName(reading))))]
    + if HasReading(reading)
      then [(ValueColumn(reading.DoorData?), ValueCell(reading)),
            (TimeColumn(reading.DoorData?), TimeCell(reading))]
      else []
  }

  /** The cells after one loop iteration. */
  function PairCells(c: map<Column, Cell>, i: nat, sensor: Sensor, reading: SensorDataResponse)
    : map<Column, Cell>
  {
    UpdateAll(c, PairWrites(i, sensor, reading))
  }

  /** The writes of one iteration made one after another. */
  lemma PairCellsSpelledOut(c: map<Column, Cell>, i: nat, sensor: Sensor, reading: SensorDataResponse)
    ensures var w := PairWrites(i, sensor, reading);
      var m := c[w[0].0 := w[0].1][w[1].0 := w[1].1][w[2].0 := w[2].1][w[3].0 := w[3].1];
      PairCells(c, i, sensor, reading) == if |w| == 4 then m else m[w[4].0 := w[4].1][w[5].0 := w[5].1]
  {
    var w := PairWrites(i, sensor, reading);
    var m0 := c;
    var m1 := m0[w[0].0 := w[0].1];
    assert w[0..][1..] == w[1..];
    assert UpdateAll(m0, w[0..]) == UpdateAll(m1, w[1..]);
    var m2 := m1[w[1].0 := w[1].1];
    assert w[1..][1..] == w[2..];
    assert UpdateAll(m1, w[1..]) == UpdateAll(m2, w[2..]);
    var m3 := m2[w[2].0 := w[2].1];
    assert w[2..][1..] == w[3..];
    assert UpdateAll(m2, w[2..]) == UpdateAll(m3, w[3..]);
    var m4 := m3[w[3].0 := w[3].1];
    assert w[3..][1..] == w[4..];
    assert UpdateAll(m3, w[3..]) == UpdateAll(m4, w[4..]);
    if |w| == 6 {
      var m5 := m4[w[4].0 := w[4].1];
      assert w[4..][1..] == w[5..];
      assert UpdateAll(m4, w[4..]) == UpdateAll(m5, w[5..]);
      var m6 := m5[w[5].0 := w[5].1];
      assert w[5..][1..] == w[6..];
      assert UpdateAll(m5, w[5..]) == UpdateAll(m6, w[6..]);
    }
    assert w[0..] == w;
  }

  /** The same writes made on the insertion-ordered dict. */
  function PairEntries(d: Dict<Column>, i: nat, sensor: Sensor, reading: SensorDataResponse)
    : (e: Dict<Column>)
    requires d.Valid()
    ensures e.Valid() && e.cells == PairCells(d.cells, i, sensor, reading)
  {
    d.SetAll(PairWrites(i, sensor, reading))
  }

  /** The cells after the loop has handled the first n (sensor, reading) pairs. */
  function SensorCells(sensors: seq<Sensor>, data: seq<SensorDataResponse>, n: nat): map<Column, Cell>
    requires n <= |sensors| && n <= |data|
  {
    if n == 0 then map[]
    else PairCells(SensorCells(sensors, data, n - 1), n - 1, sensors[n - 1], data[n - 1])
  }

  /** The sensor dict after the loop has handled the first n (sensor, reading) pairs. */
  function SensorDict(sensors: seq<Sensor>, data: seq<SensorDataResponse>, n: nat): (d: Dict<Column>)
    requires n <= |sensors| && n <= |data|
    ensures d.Valid() && d.cells == SensorCells(sensors, data, n)
  {
    if n == 0 then EmptyDict()
    else PairEntries(SensorDict(sensors, data, n - 1), n - 1, sensors[n - 1], data[n - 1])
  }

  function VehicleCells(v: Vehicle): map<Column, Cell> {
    map[Make := Str(v.make), Model := Str(v.model), Year := Str(v.year),
        GatewaySerial := Str(v.externalIds.serial)]
  }

  /** The one-row frame: vehicle columns first, then the sensor dict's, index
      0 (sorting a single row changes nothing). */
  function RowTable(v: Vehicle, d: Dict<Column>): Table<Column> {
    Table(VehicleColumns + d.keys, [Row(0, VehicleCells(v) + d.cells)])
  }

  /** The row the composer builds, or the position of the first reading
      whose grouped-sensor list is empty. */
  function Composed(vehicle: Vehicle, sensors: seq<Sensor>, data: seq<SensorDataResponse>)
    : Result<Table<Column>, Failure>
  {
    var n := Min(|sensors|, |data|);
    match FirstWithoutReading(data, n)
    case Some(i) => Failure(NoReadingInResponse(i))
    case None => Success(RowTable(vehicle, SensorDict(sensors, data, n)))
  }

  method ConvertDataModelToTimeseries(vehicle: Vehicle, sensors: seq<Sensor>, data: seq<SensorDataResponse>)
    returns (r: Result<Table<Column>, Failure>)
    ensures r == Composed(vehicle, sensors, data)
  {
    var n := Min(|sensors|, |data|);
    var d := EmptyDict();
    for i := 0 to n
      invariant FirstWithoutReading(data, i).None?
      invariant d == SensorDict(sensors, data, i)
    {
      var written := WritePair(d, i, sensors[i], data[i]);
      if written.None? {
        FirstWithoutReadingAt(data, i, n);
        return Failure(NoReadingInResponse(i));
      }
      d := written.value;
    }
    r := Success(RowTable(vehicle, d));
  }

  /** One iteration of the composer's loop: the identity entries of sensor i,
      then its reading's entries; None where the reading's first grouped
      sensor does not exist. */
  method WritePair(d0: Dict<Column>, i: nat, sensor: Sensor, reading: SensorDataResponse)
    returns (r: Option<Dict<Column>>)
    requires d0.Valid()
    ensures r.None? <==> !HasReading(reading)
    ensures r.Some? ==> r.value == PairEntries(d0, i, sensor, reading)
  {
    var d := d0.Set(SensorColumn(i, Id), Tuple1(Int(sensor.id)));
    d := d.Set(SensorColumn(i, Name), Tuple1(Str(sensor.name)));
    d := d.Set(SensorColumn(i, Mac), Tuple1(Str(sensor.macAddress)));
    match reading {
      case TemperatureData(t) =>
        d := d.Set(SensorColumn(i, Kind), Tuple1(Str("Temperature")));
        if |t.sensors| == 0 {
          return None;
        }
        d := d.Set(AmbientTemp, Real(Fahrenheit(t.sensors[0].ambientTemperature)));
        d := d.Set(AmbientTempTimestamp, Str(FormatMinute(t.sensors[0].ambientTemperatureTime)));
      case DoorData(door) =>
        d := d.Set(SensorColumn(i, Kind), Tuple1(Str("Door")));
        if |door.sensors| == 0 {
          return None;
        }
        d := d.Set(DoorState, Bool(door.sensors[0].doorClosed));
        d := d.Set(DoorStateTimestamp, Str(FormatMinute(door.sensors[0].doorStatusTime)));
    }
    r := Some(d);
    SetAllSix(d0, PairWrites(i, sensor, reading));
  }

  // === What the composed row holds ===

  /** The keys that pair i writes. */
  predicate WrittenBy(k: Column, i: nat, reading: SensorDataResponse) {
    || k == SensorColumn(i, Id) || k == SensorColumn(i, Name)
    || k == SensorColumn(i, Mac) || k == SensorColumn(i, Kind)
    || (HasReading(reading) && (k == ValueColumn(reading.DoorData?) || k == TimeColumn(reading.DoorData?)))
  }

  /** A pair writes its keys and leaves every other key as it was. */
  lemma PairCellsFrame(c: map<Column, Cell>, i: nat, sensor: Sensor, reading: SensorDataResponse, k: Column)
    ensures k in PairCells(c, i, sensor, reading) <==> k in c || WrittenBy(k, i, reading)
    ensures !WrittenBy(k, i, reading) && k in c ==> PairCells(c, i, sensor, reading)[k] == c[k]
  {
    PairCellsSpelledOut(c, i, sensor, reading);
  }

  /** The identity cell a pair writes for field f. */
  function IdentityCell(sensor: Sensor, reading: SensorDataResponse, f: SensorField): Cell {
    match f
    case Id => Tuple1(Int(sensor.id))
    case Name => Tuple1(Str(sensor.name))
    case Mac => Tuple1(Str(sensor.macAddress))
    case Kind => Tuple1(Str(KindName(reading)))
  }

  /** A pair writes the sensor's id, name and MAC and the reading's kind. */
  lemma PairCellsIdentity(c: map<Column, Cell>, i: nat, sensor: Sensor, reading: SensorDataResponse,
                          f: SensorField)
    ensures var p := PairCells(c, i, sensor, reading);
      SensorColumn(i, f) in p && p[SensorColumn(i, f)] == IdentityCell(sensor, reading, f)
  {
    PairCellsSpelledOut(c, i, sensor, reading);
  }

  /** A pair with a reading writes its value and time. */
  lemma PairCellsReading(c: map<Column, Cell>, i: nat, sensor: Sensor, reading: SensorDataResponse)
    requires HasReading(reading)
    ensures var p, door := PairCells(c, i, sensor, reading), reading.DoorData?;
      && ValueColumn(door) in p && p[ValueColumn(door)] == ValueCell(reading)
      && TimeColumn(door) in p && p[TimeColumn(door)] == TimeCell(reading)
  {
    PairCellsSpelledOut(c, i, sensor, reading);
  }

  /** A key pair n - 1 does not write keeps its cell from the first n - 1 pairs. */
  lemma SensorCellsKeep(sensors: seq<Sensor>, data: seq<SensorDataResponse>, n: nat, k: Column)
    requires 0 < n <= |sensors| && n <= |data|
    requires !WrittenBy(k, n - 1, data[n - 1])
    ensures var c, b := SensorCells(sensors, data, n), SensorCells(sensors, data, n - 1);
      (k in c <==> k in b) && (k in b ==> c[k] == b[k])
  {
    PairCellsFrame(SensorCells(sensors, data, n - 1), n - 1, sensors[n - 1], data[n - 1], k);
  }

  /** Pair n - 1 leaves the value and time columns of the other kind as they were. */
  lemma SensorCellsKeepOtherKind(sensors: seq<Sensor>, data: seq<SensorDataResponse>, n: nat, door: bool)
    requires 0 < n <= |sensors| && n <= |data|
    requires data[n - 1].DoorData? != door
    ensures var c, b := SensorCells(sensors, data, n), SensorCells(sensors, data, n - 1);
      && (ValueColumn(door) in c <==> ValueColumn(door) in b)
      && (ValueColumn(door) in b ==> c[ValueColumn(door)] == b[ValueColumn(door)])
      && (TimeColumn(door) in c <==> TimeColumn(door) in b)
      && (TimeColumn(door) in b ==> c[TimeColumn(door)] == b[TimeColumn(door)])
  {
    assert !WrittenBy(ValueColumn(door), n - 1, data[n - 1]);
    assert !WrittenBy(TimeColumn(door), n - 1, data[n - 1]);
    SensorCellsKeep(sensors, data, n, ValueColumn(door));
    SensorCellsKeep(sensors, data, n, TimeColumn(door));
  }

  /** The sensor dict's keys after n pairs are exactly the keys some pair writes. */
  lemma {:induction false} SensorDictKeys(sensors: seq<Sensor>, data: seq<SensorDataResponse>, n: nat)
    requires n <= |sensors| && n <= |data|
    ensures forall k :: k in SensorCells(sensors, data, n) <==>
                          exists i :: 0 <= i < n && WrittenBy(k, i, data[i])
  {
    if n > 0 {
      SensorDictKeys(sensors, data, n - 1);
      forall k ensures k in SensorCells(sensors, data, n) <==>
                         exists i :: 0 <= i < n && WrittenBy(k, i, data[i])
      {
        PairCellsFrame(SensorCells(sensors, data, n - 1), n - 1, sensors[n - 1], data[n - 1], k);
        if exists i :: 0 <= i < n && WrittenBy(k, i, data[i]) {
          var i :| 0 <= i < n && WrittenBy(k, i, data[i]);
          assert i < n - 1 || WrittenBy(k, n - 1, data[n - 1]);
        }
      }
    }
  }

  /** Sensor i's identity cells hold its id, name and MAC, each as a
      one-element tuple, and the kind of the reading paired with it. */
  lemma {:induction false} SensorDictIdentity(sensors: seq<Sensor>, data: seq<SensorDataResponse>,
                                              n: nat, i: nat, f: SensorField)
    requires n <= |sensors| && n <= |data|
    requires i < n
    ensures var c := SensorCells(sensors, data, n);
      SensorColumn(i, f) in c && c[SensorColumn(i, f)] == IdentityCell(sensors[i], data[i], f)
  {
    if i == n - 1 {
      PairCellsIdentity(SensorCells(sensors, data, n - 1), i, sensors[i], data[i], f);
    } else {
      SensorDictIdentity(sensors, data, n - 1, i, f);
      SensorCellsKeep(sensors, data, n, SensorColumn(i, f));
    }
  }

  /** The value and time columns of a kind ("Ambient Temp." and its
      timestamp, or "Door State" and its timestamp) are present exactly when
      some paired reading is of that kind. */
  lemma {:induction false} SensorDictHasLatest(sensors: seq<Sensor>, data: seq<SensorDataResponse>,
                                               n: nat, door: bool)
    requires n <= |sensors| && n <= |data|
    requires forall k :: 0 <= k < n ==> HasReading(data[k])
    ensures var c := SensorCells(sensors, data, n);
      && (ValueColumn(door) in c <==> LastOfKind(data, n, door).Some?)
      && (TimeColumn(door) in c <==> LastOfKind(data, n, door).Some?)
  {
    if n > 0 {
      assert HasReading(data[n - 1]);
      SensorDictHasLatest(sensors, data, n - 1, door);
      if data[n - 1].DoorData? != door {
        SensorCellsKeepOtherKind(sensors, data, n, door);
      } else {
        PairCellsReading(SensorCells(sensors, data, n - 1), n - 1, sensors[n - 1], data[n - 1]);
      }
    }
  }

  /** When present, they hold the value and time of the last paired reading
      of that kind: a later reading of the same kind overwrites an earlier one. */
  lemma {:induction false} SensorDictLatest(sensors: seq<Sensor>, data: seq<SensorDataResponse>,
                                            n: nat, door: bool)
    requires n <= |sensors| && n <= |data|
    requires forall k :: 0 <= k < n ==> HasReading(data[k])
    requires LastOfKind(data, n, door).Some?
    ensures var c, j := SensorCells(sensors, data, n), LastOfKind(data, n, door).value;
      && ValueColumn(door) in c && c[ValueColumn(door)] == ValueCell(data[j])
      && TimeColumn(door) in c && c[TimeColumn(door)] == TimeCell(data[j])
  {
    assert HasReading(data[n - 1]);
    if data[n - 1].DoorData? != door {
      assert LastOfKind(data, n, door) == LastOfKind(data, n - 1, door);
      SensorDictLatest(sensors, data, n - 1, door);
      SensorCellsKeepOtherKind(sensors, data, n, door);
    } else {
      assert LastOfKind(data, n, door) == Some(n - 1);
      var before := SensorCells(sensors, data, n - 1);
      assert SensorCells(sensors, data, n) == PairCells(before, n - 1, sensors[n - 1], data[n - 1]);
      PairCellsReading(before, n - 1, sensors[n - 1], data[n - 1]);
    }
  }

  /** No pair writes a vehicle column. */
  lemma {:induction false} SensorCellsAvoidVehicle(sensors: seq<Sensor>, data: seq<SensorDataResponse>, n: nat)
    requires n <= |sensors| && n <= |data|
    ensures forall k :: k in SensorCells(sensors, data, n) ==> k !in VehicleColumns
  {
    if n > 0 {
      SensorCellsAvoidVehicle(sensors, data, n - 1);
      forall k | k in VehicleColumns
        ensures k !in SensorCells(sensors, data, n)
      {
        assert !WrittenBy(k, n - 1, data[n - 1]);
        SensorCellsKeep(sensors, data, n, k);
      }
    }
  }

  /** The one-row frame has a cell in every column and in no other. */
  lemma RowTableWellFormed(v: Vehicle, d: Dict<Column>)
    requires d.Valid()
    requires forall k :: k in d.cells ==> k !in VehicleColumns
    ensures WellFormed(RowTable(v, d))
  {
    var t := RowTable(v, d);
    assert Distinct(t.columns) by {
      forall i, j | 0 <= i < j < |t.columns| ensures t.columns[i] != t.columns[j] {
        if i < 4 && j >= 4 {
          assert t.columns[j] == d.keys[j - 4];
          assert t.columns[j] in d.cells;
        } else if i >= 4 {
          assert t.columns[i] == d.keys[i - 4] && t.columns[j] == d.keys[j - 4];
        }
      }
    }
    forall k ensures k in t.rows[0].cells <==> k in t.columns {
      assert k in VehicleCells(v) <==> k in VehicleColumns;
    }
  }

  /** Its one row, index 0, starts with the vehicle's make, model, year and
      gateway serial. */
  lemma RowTableVehicle(v: Vehicle, d: Dict<Column>)
    requires forall k :: k in d.cells ==> k !in VehicleColumns
    ensures var t := RowTable(v, d);
      && |t.rows| == 1 && t.rows[0].index == 0
      && t.columns[..4] == VehicleColumns
      && t.rows[0].cells[Make] == Str(v.make)
      && t.rows[0].cells[Model] == Str(v.model)
      && t.rows[0].cells[Year] == Str(v.year)
      && t.rows[0].cells[GatewaySerial] == Str(v.externalIds.serial)
  {
    assert Make !in d.cells && Model !in d.cells && Year !in d.cells && GatewaySerial !in d.cells;
  }

  /** The composed row: one row, index 0, a cell in every column, the four
      vehicle columns first with the vehicle's make, model, year and gateway serial. */
  lemma ComposedShape(vehicle: Vehicle, sensors: seq<Sensor>, data: seq<SensorDataResponse>)
    requires Composed(vehicle, sensors, data).Success?
    ensures var t := Composed(vehicle, sensors, data).value;
      && WellFormed(t)
      && |t.rows| == 1 && t.rows[0].index == 0
      && t.columns[..4] == VehicleColumns
      && t.rows[0].cells[Make] == Str(vehicle.make)
      && t.rows[0].cells[Model] == Str(vehicle.model)
      && t.rows[0].cells[Year] == Str(vehicle.year)
      && t.rows[0].cells[GatewaySerial] == Str(vehicle.externalIds.serial)
  {
    var n := Min(|sensors|, |data|);
    SensorCellsAvoidVehicle(sensors, data, n);
    var d := SensorDict(sensors, data, n);
    RowTableWellFormed(vehicle, d);
    RowTableVehicle(vehicle, d);
  }

  // === Warehouse merge ===

  /** The store after update_data_warehouse: the new rows when there is no
      store; otherwise old rows then new rows, sorted by index, with every
      object-typed column converted to str. */
  function Merged(store: Option<Table<Column>>, incoming: Table<Column>, floatRepr: real -> string)
    : Table<Column>
  {
    match store
    case None => incoming
    case Some(existing) =>
      var combined := Concat(existing, incoming);
      Normalize(Table(combined.columns, SortByIndex(combined.rows)), floatRepr)
  }

  class Warehouse {
    var store: Option<Table<Column>>

    ghost predicate Valid()
      reads this
    {
      store.Some? ==> WellFormed(store.value)
    }

    constructor (initial: Option<Table<Column>>)
      requires initial.Some? ==> WellFormed(initial.value)
      ensures Valid() && store == initial
    {
      store := initial;
    }

    /** Writes the new rows as the store, or merges them into it. */
    method UpdateDataWarehouse(incoming: Table<Column>, floatRepr: real -> string)
      requires Valid() && WellFormed(incoming)
      modifies this
      ensures Valid()
      ensures store == Some(Merged(old(store), incoming, floatRepr))
    {
      MergedWellFormed(store, incoming, floatRepr);
      if store.None? {
        store := Some(incoming);
        return;
      }
      var combined := Concat(store.value, incoming);
      var sorted := Table(combined.columns, SortByIndex(combined.rows));
      var normalized := CoerceObjectColumns(sorted, floatRepr);
      store := Some(normalized);
    }
  }

  /** The merged store has a cell in every column and in no other. */
  lemma MergedWellFormed(store: Option<Table<Column>>, incoming: Table<Column>, floatRepr: real -> string)
    requires WellFormed(incoming) && (store.Some? ==> WellFormed(store.value))
    ensures WellFormed(Merged(store, incoming, floatRepr))
  {
    if store.Some? {
      var combined := Concat(store.value, incoming);
      SortKeepsWellFormed(combined);
      NormalizeKeepsWellFormed(Table(combined.columns, SortByIndex(combined.rows)), floatRepr);
    }
  }

  /** With no store, the store becomes exactly the new rows. */
  lemma MergeIntoAbsentStore(incoming: Table<Column>, floatRepr: real -> string)
    requires WellFormed(incoming)
    ensures Merged(None, incoming, floatRepr) == incoming
  {
  }

  /** No deduplication: the merged store has every old row and every new row. */
  lemma MergeKeepsEveryRow(existing: Table<Column>, incoming: Table<Column>, floatRepr: real -> string)
    requires WellFormed(existing) && WellFormed(incoming)
    ensures |Merged(Some(existing), incoming, floatRepr).rows| == |existing.rows| + |incoming.rows|
  {
    var combined := Concat(existing, incoming);
    assert |SortByIndex(combined.rows)| == |combined.rows|;
  }

  /** After a merge the index is non-decreasing from the first row to the last. */
  lemma MergeSortedByIndex(store: Option<Table<Column>>, incoming: Table<Column>, floatRepr: real -> string)
    requires WellFormed(incoming) && (store.Some? ==> WellFormed(store.value))
    requires store.None? ==> SortedByIndex(incoming.rows)
    ensures SortedByIndex(Merged(store, incoming, floatRepr).rows)
  {
    if store.Some? {
      var combined := Concat(store.value, incoming);
      var sorted := SortByIndex(combined.rows);
      var m := Merged(store, incoming, floatRepr);
      assert forall i :: 0 <= i < |m.rows| ==> m.rows[i].index == sorted[i].index;
    }
  }

  /** The merged rows are a permutation of the old rows followed by the new
      ones, each with its object-typed cells converted to str. */
  lemma MergePermutation(existing: Table<Column>, incoming: Table<Column>, floatRepr: real -> string)
    requires WellFormed(existing) && WellFormed(incoming)
    ensures var combined := Concat(existing, incoming);
      multiset(Merged(Some(existing), incoming, floatRepr).rows)
        == multiset(CoerceRows(combined.rows, ObjectColumns(combined), floatRepr))
  {
    var combined := Concat(existing, incoming);
    var sorted := SortByIndex(combined.rows);
    var o := ObjectColumns(combined);
    ObjectColumnsOfSameRows(combined, sorted);
    SortCoerce(combined.rows, o, floatRepr);
    assert Merged(Some(existing), incoming, floatRepr).rows == CoerceRows(sorted, o, floatRepr);
  }

  /** When old and new rows are already in index order (every composed row
      has index 0), the merge keeps old rows first and new rows after them. */
  lemma MergeInOrder(existing: Table<Column>, incoming: Table<Column>, floatRepr: real -> string)
    requires WellFormed(existing) && WellFormed(incoming)
    requires SortedByIndex(Concat(existing, incoming).rows)
    ensures var combined := Concat(existing, incoming);
      Merged(Some(existing), incoming, floatRepr).rows
        == CoerceRows(combined.rows, ObjectColumns(combined), floatRepr)
  {
    var combined := Concat(existing, incoming);
    SortSortedUnchanged(combined.rows);
    assert Table(combined.columns, SortByIndex(combined.rows)) == combined;
  }

  /** Every object-typed column of the merged store holds strings in every
      row; every other column keeps its cells. */
  lemma MergeObjectColumnsAreText(existing: Table<Column>, incoming: Table<Column>,
                                  floatRepr: real -> string, i: nat, col: Column)
    requires WellFormed(existing) && WellFormed(incoming)
    requires i < |existing.rows| + |incoming.rows|
    requires col in existing.columns || col in incoming.columns
    ensures var combined := Concat(existing, incoming);
      var sorted := SortByIndex(combined.rows);
      var m := Merged(Some(existing), incoming, floatRepr);
      && col in m.rows[i].cells
      && (col in ObjectColumns(combined) ==> m.rows[i].cells[col].Str?)
      && (col !in ObjectColumns(combined) ==> m.rows[i].cells[col] == sorted[i].cells[col])
  {
    var combined := Concat(existing, incoming);
    var sorted := Table(combined.columns, SortByIndex(combined.rows));
    SortKeepsWellFormed(combined);
    assert col in sorted.rows[i].cells;
    ObjectColumnsOfSameRows(combined, sorted.rows);
    NormalizeCells(sorted, floatRepr, i, col);
  }

  /** Merging the same composed row twice into an absent store leaves two equal
      rows, not one. */
  lemma MergeTwiceKeepsBoth(row: Table<Column>, floatRepr: real -> string)
    requires WellFormed(row) && |row.rows| == 1 && row.rows[0].index == 0
    ensures var twice := Merged(Some(Merged(None, row, floatRepr)), row, floatRepr);
      |twice.rows| == 2 && twice.rows[0] == twice.rows[1]
  {
    assert Merged(None, row, floatRepr) == row;
    ConcatSelf(row);
    SortNormalizeTwins(Concat(row, row), floatRepr);
  }

  // === The run ===

  datatype Failure =
    | EmptyVehicleResponse
    | MalformedVehicleResponse
    | NoVehicleInResponse
    | EmptySensorListResponse
    | MalformedSensorListResponse
    | MalformedSensorData(position: nat)
    | NoReadingInResponse(position: nat)

  datatype RunOutcome = Stored | Aborted(reason: Failure)

  /** Everything main does before the merge: the row to merge, or why the run
      stops. Checks are made in this order: vehicle response present (a null
      body counts as empty), decodes, holds a vehicle; sensor list present,
      decodes; readings decode; every paired reading has a grouped sensor. */
  function PlannedRow(vehicleFetch: Option<Json>, sensorListFetch: Option<Json>,
                      post: Request -> Option<Json>): Result<Table<Column>, Failure>
  {
    match BodyValue(vehicleFetch)
    case None => Failure(EmptyVehicleResponse)
    case Some(vj) =>
      match DecodeVehicleResponse(vj)
      case None => Failure(MalformedVehicleResponse)
      case Some(vr) =>
        if |vr.data| == 0 then Failure(NoVehicleInResponse)
        else
          match BodyValue(sensorListFetch)
          case None => Failure(EmptySensorListResponse)
          case Some(sj) =>
            match DecodeSensorListResponse(sj)
            case None => Failure(MalformedSensorListResponse)
            case Some(sl) =>
              match SensorData(sl, post)
              case Failure(i) => Failure(MalformedSensorData(i))
              case Success(data) => Composed(vr.data[0], sl.sensors, data)
  }

  method RunIngestion(warehouse: Warehouse, vehicleFetch: Option<Json>, sensorListFetch: Option<Json>,
                      post: Request -> Option<Json>, floatRepr: real -> string)
    returns (outcome: RunOutcome)
    requires warehouse.Valid()
    modifies warehouse
    ensures warehouse.Valid()
    ensures var planned := PlannedRow(vehicleFetch, sensorListFetch, post);
      && (planned.Failure? ==> outcome == Aborted(planned.error) && warehouse.store == old(warehouse.store))
      && (planned.Success? ==> WellFormed(planned.value) && outcome == Stored
                               && warehouse.store == Some(Merged(old(warehouse.store), planned.value, floatRepr)))
  {
    var vehicleBody := BodyValue(vehicleFetch);
    if vehicleBody.None? {
      return Aborted(EmptyVehicleResponse);
    }
    var vehicleResponse := DecodeVehicleResponse(vehicleBody.value);
    if vehicleResponse.None? {
      return Aborted(MalformedVehicleResponse);
    }
    if |vehicleResponse.value.data| == 0 {
      return Aborted(NoVehicleInResponse);
    }
    var vehicle := vehicleResponse.value.data[0];
    var sensorListBody := BodyValue(sensorListFetch);
    if sensorListBody.None? {
      return Aborted(EmptySensorListResponse);
    }
    var sensorList := DecodeSensorListResponse(sensorListBody.value);
    if sensorList.None? {
      return Aborted(MalformedSensorListResponse);
    }
    var sensorData := GetSensorData(sensorList.value, post);
    if sensorData.Failure? {
      return Aborted(MalformedSensorData(sensorData.error));
    }
    var row := ConvertDataModelToTimeseries(vehicle, sensorList.value.sensors, sensorData.value);
    if row.Failure? {
      return Aborted(row.error);
    }
    ComposedShape(vehicle, sensorList.value.sensors, sensorData.value);
    warehouse.UpdateDataWarehouse(row.value, floatRepr);
    outcome := Stored;
  }

  // === Properties of a run ===

  /** An absent or null vehicle response stops the run first, whatever else happens. */
  lemma AbsentVehicleStopsFirst(vehicleFetch: Option<Json>, sensorListFetch: Option<Json>,
                                post: Request -> Option<Json>)
    requires vehicleFetch.None? || vehicleFetch == Some(JNull)
    ensures PlannedRow(vehicleFetch, sensorListFetch, post) == Failure(EmptyVehicleResponse)
  {
  }

  /** With a usable vehicle response, an absent or null sensor list stops the run next. */
  lemma AbsentSensorListStopsNext(vehicleFetch: Option<Json>, sensorListFetch: Option<Json>,
                                  post: Request -> Option<Json>)
    requires vehicleFetch.Some? && DecodeVehicleResponse(vehicleFetch.value).Some?
    requires |DecodeVehicleResponse(vehicleFetch.value).value.data| > 0
    requires sensorListFetch.None? || sensorListFetch == Some(JNull)
    ensures PlannedRow(vehicleFetch, sensorListFetch, post) == Failure(EmptySensorListResponse)
  {
  }

  /** Only the first vehicle of the response reaches the row. */
  lemma RowUsesFirstVehicle(vehicleFetch: Option<Json>, sensorListFetch: Option<Json>,
                            post: Request -> Option<Json>)
    requires PlannedRow(vehicleFetch, sensorListFetch, post).Success?
    ensures var v := DecodeVehicleResponse(vehicleFetch.value).value.data[0];
      var t := PlannedRow(vehicleFetch, sensorListFetch, post).value;
      && |t.rows| == 1 && t.rows[0].index == 0
      && t.rows[0].cells[Make] == Str(v.make)
      && t.rows[0].cells[GatewaySerial] == Str(v.externalIds.serial)
  {
    var v := DecodeVehicleResponse(vehicleFetch.value).value.data[0];
    var sl := DecodeSensorListResponse(sensorListFetch.value).value;
    ComposedShape(v, sl.sensors, SensorData(sl, post).value);
  }

  /** When every sensor fetch fails or answers null, the run still stores a
      row, holding only the four vehicle columns. */
  lemma NoReadingsOnlyVehicleColumns(vehicleFetch: Option<Json>, sensorListFetch: Option<Json>,
                                     post: Request -> Option<Json>)
    requires vehicleFetch.Some? && DecodeVehicleResponse(vehicleFetch.value).Some?
    requires |DecodeVehicleResponse(vehicleFetch.value).value.data| > 0
    requires sensorListFetch.Some? && DecodeSensorListResponse(sensorListFetch.value).Some?
    requires forall q :: BodyValue(post(q)).None?
    ensures PlannedRow(vehicleFetch, sensorListFetch, post).Success?
    ensures PlannedRow(vehicleFetch, sensorListFetch, post).value.columns == VehicleColumns
  {
    var v := DecodeVehicleResponse(vehicleFetch.value).value.data[0];
    var sl := DecodeSensorListResponse(sensorListFetch.value).value;
    AllFetchesFailNoReadings(sl, post);
    ComposedNoReadings(v, sl.sensors);
  }

  /** With no readings the composer's loop does not run, and the row holds
      the vehicle columns alone. */
  lemma ComposedNoReadings(vehicle: Vehicle, sensors: seq<Sensor>)
    ensures Composed(vehicle, sensors, []).Success?
    ensures Composed(vehicle, sensors, []).value.columns == VehicleColumns
  {
    assert Min(|sensors|, 0) == 0;
    assert SensorDict(sensors, [], 0).keys == [];
  }

  /** Absent readings are dropped before pairing: when sensor j's fetch fails
      and a later sensor i's succeeds, sensor i's reading is paired with an
      earlier sensor's identity columns. */
  lemma AbsentReadingShiftsPairing(response: SensorListResponse, post: Request -> Option<Json>,
                                   i: nat, j: nat)
    requires SensorData(response, post).Success?
    requires j < i < |response.sensors|
    requires var (endpoints, ids) := ParseSensorListResponse(response);
      && BodyValue(post(SensorRequest(endpoints[j], ids[j]))).None?
      && BodyValue(post(SensorRequest(endpoints[i], ids[i]))).Some?
    ensures var (endpoints, ids) := ParseSensorListResponse(response);
      var responses := FetchedResponses(endpoints, ids, post);
      var p := CountPresent(responses[..i]);
      && p < i && p < |SensorData(response, post).value|
      && i < |responses| && responses[i].Some?
      && DecodeSensorData(responses[i].value, endpoints[i]).Some?
      && SensorData(response, post).value[p]
           == DecodeSensorData(responses[i].value, endpoints[i]).value
  {
    var (endpoints, ids) := ParseSensorListResponse(response);
    var responses := FetchedResponses(endpoints, ids, post);
    FilteredPlacement(responses, endpoints, |responses|, i);
    CountPresentAfterGap(responses, i, j);
  }

  /** The shift as the row shows it: the identity columns of an earlier
      sensor p hold sensor p's own id, while its Type column holds the kind
      of sensor i's reading. */
  lemma ShiftedReadingInRow(vehicle: Vehicle, response: SensorListResponse,
                            post: Request -> Option<Json>, i: nat, j: nat)
    requires SensorData(response, post).Success?
    requires Composed(vehicle, response.sensors, SensorData(response, post).value).Success?
    requires j < i < |response.sensors|
    requires var parsed := ParseSensorListResponse(response);
      && BodyValue(post(SensorRequest(parsed.0[j], parsed.1[j]))).None?
      && BodyValue(post(SensorRequest(parsed.0[i], parsed.1[i]))).Some?
    ensures var parsed := ParseSensorListResponse(response);
      var responses := FetchedResponses(parsed.0, parsed.1, post);
      var p := CountPresent(responses[..i]);
      var t := Composed(vehicle, response.sensors, SensorData(response, post).value).value;
      && p < i && i < |responses| && responses[i].Some?
      && DecodeSensorData(responses[i].value, parsed.0[i]).Some?
      && |t.rows| == 1
      && SensorColumn(p, Id) in t.rows[0].cells
      && t.rows[0].cells[SensorColumn(p, Id)] == Tuple1(Int(response.sensors[p].id))
      && SensorColumn(p, Kind) in t.rows[0].cells
      && t.rows[0].cells[SensorColumn(p, Kind)]
           == Tuple1(Str(KindName(DecodeSensorData(responses[i].value, parsed.0[i]).value)))
  {
    var parsed := ParseSensorListResponse(response);
    var responses := FetchedResponses(parsed.0, parsed.1, post);
    var data := SensorData(response, post).value;
    AbsentReadingShiftsPairing(response, post, i, j);
    var p := CountPresent(responses[..i]);
    var reading := DecodeSensorData(responses[i].value, parsed.0[i]).value;
    assert data[p] == reading;
    ComposedIdentity(vehicle, response.sensors, data, p, Id);
    ComposedIdentity(vehicle, response.sensors, data, p, Kind);
    var t := Composed(vehicle, response.sensors, data).value;
    assert t.rows[0].cells[SensorColumn(p, Kind)] == Tuple1(Str(KindName(reading)));
  }

  /** In the composed row, sensor p's identity columns hold what pair p wrote. */
  lemma ComposedIdentity(vehicle: Vehicle, sensors: seq<Sensor>, data: seq<SensorDataResponse>,
                         p: nat, f: SensorField)
    requires Composed(vehicle, sensors, data).Success?
    requires p < |sensors| && p < |data|
    ensures var t := Composed(vehicle, sensors, data).value;
      && |t.rows| == 1
      && SensorColumn(p, f) in t.rows[0].cells
      && t.rows[0].cells[SensorColumn(p, f)] == IdentityCell(sensors[p], data[p], f)
  {
    var n := Min(|sensors|, |data|);
    var d := SensorDict(sensors, data, n);
    assert Composed(vehicle, sensors, data) == Success(RowTable(vehicle, d));
    SensorDictIdentity(sensors, data, n, p, f);
  }
}

=== FILE: json.dfy ===
/** Decoded JSON as the upstream API delivers it, and the field readers that
    the typed records use to validate it. The value of a field declared
    `datetime` (ambientTemperatureTime, doorStatusTime) appears already
    parsed, as a JTime leaf; every other string, timestamp-shaped or not
    (a vehicle's createdAtTime and updatedAtTime are declared `str`), is a
    JStr. There is no fractional-number leaf. */
module Json {
  import opened Wrappers
  import opened Text

  datatype Json =
    | JNull
    | JBool(b: bool)
    | JInt(i: int)
    | JStr(s: string)
    | JTime(t: Timestamp)
    | JArr(items: seq<Json>)
    | JObj(fields: map<string, Json>)

  /** The value stored under `key`, if `j` is an object that has it. */
  function Field(j: Json, key: string): (r: Option<Json>)
    ensures r.Some? <==> j.JObj? && key in j.fields
  {
    if j.JObj? && key in j.fields then Some(j.fields[key]) else None
  }

  function StrField(j: Json, key: string): Option<string> {
    var v :- Field(j, key);
    if v.JStr? then Some(v.s) else None
  }

  function IntField(j: Json, key: string): Option<int> {
    var v :- Field(j, key);
    if v.JInt? then Some(v.i) else None
  }

  function BoolField(j: Json, key: string): Option<bool> {
    var v :- Field(j, key);
    if v.JBool? then Some(v.b) else None
  }

  function TimeField(j: Json, key: string): Option<Timestamp> {
    var v :- Field(j, key);
    if v.JTime? then Some(v.t) else None
  }

  function ObjField(j: Json, key: string): Option<map<string, Json>> {
    var v :- Field(j, key);
    if v.JObj? then Some(v.fields) else None
  }

  /** `Optional[str] = ""`: an absent key gives "", null gives None,
      a string gives itself, anything else fails. */
  function OptStrField(j: Json, key: string): (r: Option<Option<string>>)
    requires j.JObj?
    ensures key !in j.fields ==> r == Some(Some(""))
  {
    if key !in j.fields then Some(Some(""))
    else match j.fields[key]
      case JNull => Some(None)
      case JStr(s) => Some(Some(s))
      case _ => None
  }

  /** A list field: every element must decode, in order. */
  function DecodeList<T>(items: seq<Json>, decode: Json -> Option<T>): (r: Option<seq<T>>)
    ensures r.Some? <==> forall i :: 0 <= i < |items| ==> decode(items[i]).Some?
    ensures r.Some? ==> |r.value| == |items|
    ensures r.Some? ==> forall i :: 0 <= i < |items| ==> decode(items[i]) == Some(r.value[i])
  {
    if items == [] then Some([])
    else
      var head :- decode(items[0]);
      var tail :- DecodeList(items[1..], decode);
      Some([head] + tail)
  }

  function ListField<T>(j: Json, key: string, decode: Json -> Option<T>): Option<seq<T>> {
    var v :- Field(j, key);
    if v.JArr? then DecodeList(v.items, decode) else None
  }

  function EncodeList<T>(xs: seq<T>, encode: T -> Json): (r: seq<Json>)
    ensures |r| == |xs|
  {
    seq(|xs|, i requires 0 <= i < |xs| => encode(xs[i]))
  }

  /** A list decoder undoes the matching list encoder, element by element. */
  lemma DecodeEncodedList<T>(xs: seq<T>, encode: T -> Json, decode: Json -> Option<T>)
    requires forall x :: decode(encode(x)) == Some(x)
    ensures DecodeList(EncodeList(xs, encode), decode) == Some(xs)
  {
    var items := EncodeList(xs, encode);
    assert forall i :: 0 <= i < |items| ==> decode(items[i]) == Some(xs[i]);
    var r := DecodeList(items, decode);
    assert r.Some?;
    assert forall i :: 0 <= i < |xs| ==> r.value[i] == xs[i];
    assert r.value == xs;
    assert r == Some(xs);
  }

  /** A list element that must be a string. */
  function StrItem(j: Json): Option<string> {
    if j.JStr? then Some(j.s) else None
  }
}

=== FILE: table.dfy ===
/** A one-level model of the pandas frames the pipeline builds: cells, an
    insertion-ordered dict (a Python dict), rows keyed by an index, row-wise
    concatenation that pads missing cells, sorting by index, and the
    conversion of object-typed columns to text. */
module Table {
  import opened Text

  /** A cell: NaN (Missing), a number, a bool, a str, or a one-element tuple. */
  datatype Cell = Missing | Int(i: int) | Real(r: real) | Bool(b: bool) | Str(s: string) | Tuple1(item: Cell)

  /** Python's repr() of a cell; `floatRepr` is Python's text for a float.
      A string is always put in single quotes and its characters are copied
      as they are: Python's switch to double quotes and its escapes of
      backslashes, quotes and control or non-printable characters are not
      modelled. */
  function Repr(c: Cell, floatRepr: real -> string): string {
    match c
    case Missing => "nan"
    case Int(i) => IntText(i)
    case Real(r) => floatRepr(r)
    case Bool(b) => if b then "True" else "False"
    case Str(s) => "'" + s + "'"
    case Tuple1(x) => "(" + Repr(x, floatRepr) + ",)"
  }

  /** Python's str() of a cell: a string is its own text, anything else its repr. */
  function CellText(c: Cell, floatRepr: real -> string): (s: string)
    ensures c.Str? ==> s == c.s
  {
    if c.Str? then c.s else Repr(c, floatRepr)
  }

  predicate Distinct<K(==,!new)>(s: seq<K>) {
    forall i, j :: 0 <= i < j < |s| ==> s[i] != s[j]
  }

  // === Python dict: keys in insertion order ===

  datatype Dict<K(==,!new)> = Dict(keys: seq<K>, cells: map<K, Cell>) {
    ghost predicate Valid() {
      Distinct(keys) && forall k :: k in cells <==> k in keys
    }

    /** d[k] = v: a new key goes last, an existing key keeps its place. */
    function Set(k: K, v: Cell): (d: Dict<K>)
      requires Valid()
      ensures d.Valid()
      ensures d.cells == cells[k := v]
      ensures |keys| <= |d.keys| && d.keys[..|keys|] == keys
    {
      Dict(if k in cells then keys else keys + [k], cells[k := v])
    }

    /** d[k] = v for each (k, v) of `entries`, in order. */
    function SetAll(entries: seq<(K, Cell)>): (d: Dict<K>)
      requires Valid()
      ensures d.Valid()
      ensures d.cells == UpdateAll(cells, entries)
      ensures |keys| <= |d.keys| && d.keys[..|keys|] == keys
      decreases |entries|
    {
      if entries == [] then this else Set(entries[0].0, entries[0].1).SetAll(entries[1..])
    }
  }

  /** The map after assigning each (k, v) of `entries`, in order. */
  function UpdateAll<K(==,!new)>(m: map<K, Cell>, entries: seq<(K, Cell)>): map<K, Cell>
    decreases |entries|
  {
    if entries == [] then m else UpdateAll(m[entries[0].0 := entries[0].1], entries[1..])
  }

  /** Six writes in a row, spelled out. */
  lemma SetAllSix<K(!new)>(d: Dict<K>, w: seq<(K, Cell)>)
    requires d.Valid() && |w| == 6
    ensures d.SetAll(w) == d.Set(w[0].0, w[0].1).Set(w[1].0, w[1].1).Set(w[2].0, w[2].1)
                          .Set(w[3].0, w[3].1).Set(w[4].0, w[4].1).Set(w[5].0, w[5].1)
  {
    var d0 := d;
    var d1 := d0.Set(w[0].0, w[0].1);
    var d2 := d1.Set(w[1].0, w[1].1);
    var d3 := d2.Set(w[2].0, w[2].1);
    var d4 := d3.Set(w[3].0, w[3].1);
    var d5 := d4.Set(w[4].0, w[4].1);
    var d6 := d5.Set(w[5].0, w[5].1);
    assert w[0..][1..] == w[1..];
    assert d0.SetAll(w[0..]) == d1.SetAll(w[1..]);
    assert w[1..][1..] == w[2..];
    assert d1.SetAll(w[1..]) == d2.SetAll(w[2..]);
    assert w[2..][1..] == w[3..];
    assert d2.SetAll(w[2..]) == d3.SetAll(w[3..]);
    assert w[3..][1..] == w[4..];
    assert d3.SetAll(w[3..]) == d4.SetAll(w[4..]);
    assert w[4..][1..] == w[5..];
    assert d4.SetAll(w[4..]) == d5.SetAll(w[5..]);
    assert w[5..][1..] == w[6..];
    assert d5.SetAll(w[5..]) == d6.SetAll(w[6..]);
    assert w[0..] == w;
  }

  function EmptyDict<K(==,!new)>(): (d: Dict<K>)
    ensures d.Valid() && d.cells == map[]
  {
    Dict([], map[])
  }

  // === Tables ===

  datatype Row<K(==,!new)> = Row(index: int, cells: map<K, Cell>)

  datatype Table<K(==,!new)> = Table(columns: seq<K>, rows: seq<Row<K>>)

  ghost predicate HasColumns<K(!new)>(r: Row<K>, columns: seq<K>) {
    forall k :: k in r.cells <==> k in columns
  }

  /** Every row has a cell in every column and in no other. */
  ghost predicate WellFormed<K(!new)>(t: Table<K>) {
    Distinct(t.columns) && forall i :: 0 <= i < |t.rows| ==> HasColumns(t.rows[i], t.columns)
  }

  /** The incoming columns the existing ones lack, in their own order. */
  function NewColumns<K(==,!new)>(existing: seq<K>, incoming: seq<K>): (r: seq<K>)
    ensures forall k :: k in r <==> k in incoming && k !in existing
    ensures Distinct(incoming) ==> Distinct(r)
  {
    if incoming == [] then []
    else
      var rest := NewColumns(existing, incoming[1..]);
      if incoming[0] in existing then rest else [incoming[0]] + rest
  }

  /** A row widened to `columns`, with NaN where it has no cell. */
  function Pad<K(==,!new)>(r: Row<K>, columns: seq<K>): (p: Row<K>)
    ensures p.index == r.index && HasColumns(p, columns)
  {
    Row(r.index, map k | k in columns :: if k in r.cells then r.cells[k] else Missing)
  }

  function PadAll<K(==,!new)>(rows: seq<Row<K>>, columns: seq<K>): (p: seq<Row<K>>)
    ensures |p| == |rows|
    ensures forall i :: 0 <= i < |rows| ==> p[i] == Pad(rows[i], columns)
  {
    seq(|rows|, i requires 0 <= i < |rows| => Pad(rows[i], columns))
  }

  /** pd.concat([a, b]): a's rows then b's, over the union of their columns. */
  function Concat<K(==,!new)>(a: Table<K>, b: Table<K>): (t: Table<K>)
    ensures WellFormed(a) && WellFormed(b) ==> WellFormed(t)
    ensures |t.rows| == |a.rows| + |b.rows|
    ensures a.columns <= t.columns
    ensures forall k :: k in t.columns <==> k in a.columns || k in b.columns
  {
    var added := NewColumns(a.columns, b.columns);
    var columns := a.columns + added;
    assert Distinct(a.columns) && Distinct(b.columns) ==> Distinct(columns) by {
      if Distinct(a.columns) && Distinct(b.columns) {
        forall i, j | 0 <= i < j < |columns| ensures columns[i] != columns[j] {
          if j >= |a.columns| {
            assert columns[j] == added[j - |a.columns|];
            if i < |a.columns| {
              assert columns[i] in a.columns;
            } else {
              assert columns[i] == added[i - |a.columns|];
            }
          }
        }
      }
    }
    var t := Table(columns, PadAll(a.rows, columns) + PadAll(b.rows, columns));
    assert forall i :: 0 <= i < |t.rows| ==> HasColumns(t.rows[i], columns);
    t
  }

  /** Row i of the concatenation is row i of a, or row i - |a.rows| of b,
      with the same index and cells, and NaN in the columns it lacked. */
  lemma ConcatRow<K(!new)>(a: Table<K>, b: Table<K>, i: nat)
    requires WellFormed(a) && WellFormed(b) && i < |a.rows| + |b.rows|
    ensures var t := Concat(a, b);
      var r := if i < |a.rows| then a.rows[i] else b.rows[i - |a.rows|];
      && t.rows[i].index == r.index
      && (forall k :: k in r.cells ==> k in t.rows[i].cells && t.rows[i].cells[k] == r.cells[k])
      && (forall k :: k in t.rows[i].cells && k !in r.cells ==> t.rows[i].cells[k] == Missing)
  {
    var columns := a.columns + NewColumns(a.columns, b.columns);
    var t := Concat(a, b);
    assert t.rows == PadAll(a.rows, columns) + PadAll(b.rows, columns);
    if i < |a.rows| {
      assert t.rows[i] == Pad(a.rows[i], columns);
    } else {
      assert t.rows[i] == Pad(b.rows[i - |a.rows|], columns);
    }
  }

  /** pd.concat does not deduplicate: a one-row table concatenated with
      itself has that row twice. */
  lemma ConcatSelf<K(!new)>(t: Table<K>)
    requires WellFormed(t) && |t.rows| == 1
    ensures var c := Concat(t, t);
      |c.rows| == 2 && c.rows[0] == c.rows[1] && c.rows[0].index == t.rows[0].index
  {
    var c := Concat(t, t);
    ConcatRow(t, t, 0);
    ConcatRow(t, t, 1);
    assert c.rows[0].cells == c.rows[1].cells;
  }

  // === sort_index ===

  predicate SortedByIndex<K(==,!new)>(rows: seq<Row<K>>) {
    forall i, j :: 0 <= i < j < |rows| ==> rows[i].index <= rows[j].index
  }

  /** Places r before the first row whose index is not smaller. */
  function Insert<K(==,!new)>(r: Row<K>, sorted: seq<Row<K>>): (s: seq<Row<K>>)
    ensures |s| == |sorted| + 1
    ensures multiset(s) == multiset(sorted) + multiset{r}
  {
    if sorted == [] || r.index <= sorted[0].index then [r] + sorted
    else
      assert sorted == [sorted[0]] + sorted[1..];
      [sorted[0]] + Insert(r, sorted[1..])
  }

  lemma {:induction false} InsertKeepsSorted<K(!new)>(r: Row<K>, sorted: seq<Row<K>>)
    requires SortedByIndex(sorted)
    ensures SortedByIndex(Insert(r, sorted))
  {
    if sorted != [] && r.index > sorted[0].index {
      var rest := Insert(r, sorted[1..]);
      InsertKeepsSorted(r, sorted[1..]);
      forall k | 0 <= k < |rest| ensures sorted[0].index <= rest[k].index {
        assert rest[k] in multiset(rest);
        if rest[k] != r {
          assert rest[k] in multiset(sorted[1..]);
          var j :| 0 <= j < |sorted[1..]| && sorted[1..][j] == rest[k];
          assert sorted[0].index <= sorted[j + 1].index;
        }
      }
      assert Insert(r, sorted) == [sorted[0]] + rest;
    }
  }

  /** Rows in non-decreasing index order, by insertion: each row is placed
      before the first row of the sorted rest whose index is not smaller.
      Rows already in order come out unchanged (SortSortedUnchanged). */
  function SortByIndex<K(==,!new)>(rows: seq<Row<K>>): (s: seq<Row<K>>)
    ensures |s| == |rows| && SortedByIndex(s)
    ensures multiset(s) == multiset(rows)
  {
    if rows == [] then []
    else
      assert rows == [rows[0]] + rows[1..];
      var rest := SortByIndex(rows[1..]);
      InsertKeepsSorted(rows[0], rest);
      Insert(rows[0], rest)
  }

  /** Sorting keeps every row, so a well-formed table stays well-formed. */
  lemma SortKeepsWellFormed<K(!new)>(t: Table<K>)
    requires WellFormed(t)
    ensures WellFormed(Table(t.columns, SortByIndex(t.rows)))
  {
    var s := SortByIndex(t.rows);
    forall i | 0 <= i < |s| ensures HasColumns(s[i], t.columns) {
      assert s[i] in multiset(t.rows);
      var j :| 0 <= j < |t.rows| && t.rows[j] == s[i];
    }
  }

  /** Rows that are already in index order are left as they are. */
  lemma {:induction false} SortSortedUnchanged<K(!new)>(rows: seq<Row<K>>)
    requires SortedByIndex(rows)
    ensures SortByIndex(rows) == rows
  {
    if rows != [] {
      SortSortedUnchanged(rows[1..]);
      assert rows == [rows[0]] + rows[1..];
    }
  }

  // === object columns ===

  predicate Textual(c: Cell) {
    c.Str? || c.Tuple1?
  }

  /** The columns pandas stores with dtype object: those holding a string or a
      tuple, and those mixing bools with anything that is not a bool. */
  predicate IsObjectColumn<K(==,!new)>(rows: seq<Row<K>>, col: K) {
    || (exists r | r in rows :: col in r.cells && Textual(r.cells[col]))
    || ((exists r | r in rows :: col in r.cells && r.cells[col].Bool?)
        && (exists r | r in rows :: col in r.cells && !r.cells[col].Bool?))
  }

  function ObjectColumns<K(==,!new)>(t: Table<K>): (cols: seq<K>)
    ensures forall c :: c in cols <==> c in t.columns && IsObjectColumn(t.rows, c)
  {
    FilterObject(t.rows, t.columns)
  }

  function FilterObject<K(==,!new)>(rows: seq<Row<K>>, columns: seq<K>): (cols: seq<K>)
    ensures forall c :: c in cols <==> c in columns && IsObjectColumn(rows, c)
  {
    if columns == [] then []
    else
      var rest := FilterObject(rows, columns[1..]);
      if IsObjectColumn(rows, columns[0]) then [columns[0]] + rest else rest
  }

  /** `a` is `b` with some elements left out, the rest in their order. */
  predicate Subsequence<K(==)>(a: seq<K>, b: seq<K>)
    decreases |b|
  {
    if a == [] then true
    else if b == [] then false
    else if a[0] == b[0] then Subsequence(a[1..], b[1..])
    else Subsequence(a, b[1..])
  }

  /** The selection keeps the frame's column order and repeats no column. */
  lemma {:induction false} FilterObjectOrder<K(!new)>(rows: seq<Row<K>>, columns: seq<K>)
    ensures Subsequence(FilterObject(rows, columns), columns)
    ensures Distinct(columns) ==> Distinct(FilterObject(rows, columns))
  {
    if columns != [] {
      var rest := FilterObject(rows, columns[1..]);
      FilterObjectOrder(rows, columns[1..]);
      if IsObjectColumn(rows, columns[0]) {
        assert ([columns[0]] + rest)[1..] == rest;
        if Distinct(columns) {
          assert columns[0] !in columns[1..];
          assert Distinct(columns[1..]) by {
            forall i, j | 0 <= i < j < |columns[1..]| ensures columns[1..][i] != columns[1..][j] {
              assert columns[1..][i] == columns[i + 1] && columns[1..][j] == columns[j + 1];
            }
          }
          forall i, j | 0 <= i < j < |[columns[0]] + rest|
            ensures ([columns[0]] + rest)[i] != ([columns[0]] + rest)[j]
          {
            if i == 0 {
              assert ([columns[0]] + rest)[j] == rest[j - 1];
              assert rest[j - 1] in rest;
            } else {
              assert ([columns[0]] + rest)[i] == rest[i - 1] && ([columns[0]] + rest)[j] == rest[j - 1];
            }
          }
        }
      } else {
        if rest != [] {
          assert rest[0] in rest;
        }
        if Distinct(columns) {
          assert Distinct(columns[1..]) by {
            forall i, j | 0 <= i < j < |columns[1..]| ensures columns[1..][i] != columns[1..][j] {
              assert columns[1..][i] == columns[i + 1] && columns[1..][j] == columns[j + 1];
            }
          }
        }
      }
    }
  }

  /** The row with each cell in `cols` replaced by its text. */
  function CoerceRow<K(==,!new)>(r: Row<K>, cols: seq<K>, floatRepr: real -> string): (c: Row<K>)
    ensures c.index == r.index && c.cells.Keys == r.cells.Keys
  {
    Row(r.index, map k | k in r.cells :: if k in cols then Str(CellText(r.cells[k], floatRepr)) else r.cells[k])
  }

  function CoerceRows<K(==,!new)>(rows: seq<Row<K>>, cols: seq<K>, floatRepr: real -> string): (c: seq<Row<K>>)
    ensures |c| == |rows|
    ensures forall i :: 0 <= i < |rows| ==> c[i] == CoerceRow(rows[i], cols, floatRepr)
  {
    seq(|rows|, i requires 0 <= i < |rows| => CoerceRow(rows[i], cols, floatRepr))
  }

  /** Every object-typed column converted to str, every other column as it was. */
  function Normalize<K(==,!new)>(t: Table<K>, floatRepr: real -> string): Table<K> {
    Table(t.columns, CoerceRows(t.rows, ObjectColumns(t), floatRepr))
  }

  /** Converting no column leaves the rows as they are. */
  lemma CoerceNothing<K(!new)>(rows: seq<Row<K>>, floatRepr: real -> string)
    ensures CoerceRows(rows, [], floatRepr) == rows
  {
    var c := CoerceRows(rows, [], floatRepr);
    forall i | 0 <= i < |rows| ensures c[i] == rows[i] {
      assert c[i].cells == rows[i].cells;
    }
  }

  /** Converting one more column, after the ones before it, is converting the longer list. */
  lemma CoerceOneMore<K(!new)>(rows: seq<Row<K>>, cols: seq<K>, k: nat, floatRepr: real -> string)
    requires k < |cols|
    ensures CoerceRows(CoerceRows(rows, cols[..k], floatRepr), [cols[k]], floatRepr)
            == CoerceRows(rows, cols[..k + 1], floatRepr)
  {
    var a := CoerceRows(CoerceRows(rows, cols[..k], floatRepr), [cols[k]], floatRepr);
    var b := CoerceRows(rows, cols[..k + 1], floatRepr);
    forall i | 0 <= i < |rows| ensures a[i] == b[i] {
      assert a[i].cells == b[i].cells;
    }
  }

  /** The loop of update_data_warehouse that converts each object-typed
      column to str, one column at a time. */
  method CoerceObjectColumns<K(==,!new)>(t: Table<K>, floatRepr: real -> string) returns (n: Table<K>)
    ensures n == Normalize(t, floatRepr)
  {
    var objectColumns := ObjectColumns(t);
    CoerceNothing(t.rows, floatRepr);
    n := t;
    for k := 0 to |objectColumns|
      invariant n == Table(t.columns, CoerceRows(t.rows, objectColumns[..k], floatRepr))
    {
      CoerceOneMore(t.rows, objectColumns, k, floatRepr);
      n := Table(n.columns, CoerceRows(n.rows, [objectColumns[k]], floatRepr));
    }
    assert objectColumns[..|objectColumns|] == objectColumns;
  }

  lemma CoerceRowsCons<K(!new)>(r: Row<K>, s: seq<Row<K>>, cols: seq<K>, floatRepr: real -> string)
    ensures CoerceRows([r] + s, cols, floatRepr) == [CoerceRow(r, cols, floatRepr)] + CoerceRows(s, cols, floatRepr)
  {
  }

  /** Converting columns never changes a row's index, so it commutes with sorting. */
  lemma {:induction false} InsertCoerce<K(!new)>(r: Row<K>, s: seq<Row<K>>, cols: seq<K>,
                                                 floatRepr: real -> string)
    ensures CoerceRows(Insert(r, s), cols, floatRepr)
            == Insert(CoerceRow(r, cols, floatRepr), CoerceRows(s, cols, floatRepr))
  {
    if s == [] || r.index <= s[0].index {
      CoerceRowsCons(r, s, cols, floatRepr);
    } else {
      InsertCoerce(r, s[1..], cols, floatRepr);
      assert s == [s[0]] + s[1..];
      CoerceRowsCons(s[0], s[1..], cols, floatRepr);
      CoerceRowsCons(s[0], Insert(r, s[1..]), cols, floatRepr);
    }
  }

  lemma {:induction false} SortCoerce<K(!new)>(rows: seq<Row<K>>, cols: seq<K>, floatRepr: real -> string)
    ensures CoerceRows(SortByIndex(rows), cols, floatRepr) == SortByIndex(CoerceRows(rows, cols, floatRepr))
  {
    if rows != [] {
      assert rows == [rows[0]] + rows[1..];
      CoerceRowsCons(rows[0], rows[1..], cols, floatRepr);
      SortCoerce(rows[1..], cols, floatRepr);
      InsertCoerce(rows[0], SortByIndex(rows[1..]), cols, floatRepr);
    }
  }

  /** The object columns depend only on which rows there are, not on their order. */
  lemma ObjectColumnsOfSameRows<K(!new)>(t: Table<K>, rows: seq<Row<K>>)
    requires multiset(rows) == multiset(t.rows)
    ensures ObjectColumns(Table(t.columns, rows)) == ObjectColumns(t)
  {
    forall r ensures r in rows <==> r in t.rows {
      assert r in rows <==> r in multiset(rows);
      assert r in t.rows <==> r in multiset(t.rows);
    }
    forall c | c in t.columns ensures IsObjectColumn(rows, c) <==> c in ObjectColumns(t) {
    }
    FilterSameMembers(t.rows, rows, t.columns, ObjectColumns(t));
  }

  /** Two equal rows stay two equal rows through sorting and normalizing. */
  lemma SortNormalizeTwins<K(!new)>(t: Table<K>, floatRepr: real -> string)
    requires |t.rows| == 2 && t.rows[0] == t.rows[1]
    ensures var n := Normalize(Table(t.columns, SortByIndex(t.rows)), floatRepr);
      |n.rows| == 2 && n.rows[0] == n.rows[1]
  {
    SortSortedUnchanged(t.rows);
  }

  /** Normalizing changes cells, never which cells a row has. */
  lemma NormalizeKeepsWellFormed<K(!new)>(t: Table<K>, floatRepr: real -> string)
    requires WellFormed(t)
    ensures WellFormed(Normalize(t, floatRepr))
  {
    var n := Normalize(t, floatRepr);
    forall i | 0 <= i < |n.rows| ensures HasColumns(n.rows[i], n.columns) {
      assert n.rows[i].cells.Keys == t.rows[i].cells.Keys;
    }
  }

  /** After normalizing, each object column holds only strings, and each other
      column holds exactly what it held. */
  lemma NormalizeCells<K(!new)>(t: Table<K>, floatRepr: real -> string, i: nat, col: K)
    requires i < |t.rows| && col in t.rows[i].cells
    ensures var n := Normalize(t, floatRepr);
      && |n.rows| == |t.rows| && n.rows[i].index == t.rows[i].index
      && n.rows[i].cells.Keys == t.rows[i].cells.Keys
      && (col in ObjectColumns(t) ==> n.rows[i].cells[col] == Str(CellText(t.rows[i].cells[col], floatRepr)))
      && (col !in ObjectColumns(t) ==> n.rows[i].cells[col] == t.rows[i].cells[col])
  {
  }

  /** A column that gets a string becomes an object column. */
  lemma TextMakesObjectColumn<K(!new)>(t: Table<K>, i: nat, col: K)
    requires i < |t.rows| && col in t.rows[i].cells && Textual(t.rows[i].cells[col])
    requires col in t.columns
    ensures col in ObjectColumns(t)
  {
    assert t.rows[i] in t.rows;
  }

  /** Normalizing twice changes nothing more. */
  lemma NormalizeIdempotent<K(!new)>(t: Table<K>, floatRepr: real -> string)
    ensures Normalize(Normalize(t, floatRepr), floatRepr) == Normalize(t, floatRepr)
  {
    var n := Normalize(t, floatRepr);
    var o := ObjectColumns(t);
    forall c | c in t.columns
      ensures c in ObjectColumns(n) <==> c in o
    {
      if c in o {
        var r :| r in t.rows && c in r.cells
                 && (Textual(r.cells[c]) || r.cells[c].Bool? || !r.cells[c].Bool?);
        var i :| 0 <= i < |t.rows| && t.rows[i] == r;
        assert n.rows[i] in n.rows;
        assert n.rows[i].cells[c].Str?;
      } else {
        ObjectColumnUnchanged(t, n, c, floatRepr);
      }
    }
    assert ObjectColumns(n) == o by {
      FilterSameMembers(t.rows, n.rows, t.columns, o);
    }
    var nn := Normalize(n, floatRepr);
    forall i | 0 <= i < |t.rows| ensures nn.rows[i] == n.rows[i] {
      assert nn.rows[i].cells == n.rows[i].cells;
    }
  }

  /** A column that is not object-typed is untouched by normalizing, so it is
      still not object-typed afterwards. */
  lemma ObjectColumnUnchanged<K(!new)>(t: Table<K>, n: Table<K>, c: K, floatRepr: real -> string)
    requires n == Normalize(t, floatRepr)
    requires c !in ObjectColumns(t)
    requires c in t.columns
    ensures !IsObjectColumn(n.rows, c)
  {
    forall r | r in n.rows && c in r.cells
      ensures exists s :: s in t.rows && c in s.cells && s.cells[c] == r.cells[c]
    {
      var i :| 0 <= i < |n.rows| && n.rows[i] == r;
      assert t.rows[i] in t.rows;
    }
  }

  lemma {:induction false} FilterSameMembers<K(!new)>(rows: seq<Row<K>>, rows': seq<Row<K>>, columns: seq<K>, o: seq<K>)
    requires o == FilterObject(rows, columns)
    requires forall c :: c in columns ==> (IsObjectColumn(rows', c) <==> c in o)
    ensures FilterObject(rows', columns) == o
  {
    if columns != [] {
      FilterSameMembers(rows, rows', columns[1..], FilterObject(rows, columns[1..]));
    }
  }
}

=== FILE: text.dfy ===
/** Decimal text for integers and the minute-resolution timestamp format
    "%Y-%m-%d %H:%M" used for the warehouse timestamp columns. */
module Text {

  predicate IsDigit(c: char) {
    '0' <= c <= '9'
  }

  predicate AllDigits(s: string) {
    forall i :: 0 <= i < |s| ==> IsDigit(s[i])
  }

  function DigitChar(d: nat): (c: char)
    requires d < 10
    ensures IsDigit(c)
  {
    ('0' as int + d) as char
  }

  function DigitValue(c: char): nat
    requires IsDigit(c)
  {
    (c as int - '0' as int) as nat
  }

  /** Reads a string of decimal digits back as a number. */
  function ParseNat(s: string): nat
    requires AllDigits(s)
  {
    if s == [] then 0 else ParseNat(s[..|s| - 1]) * 10 + DigitValue(s[|s| - 1])
  }

  /** Python's str() of a non-negative int: no leading zeros, at least one digit. */
  function NatText(n: nat): (s: string)
    ensures |s| > 0 && AllDigits(s)
  {
    if n < 10 then [DigitChar(n)] else NatText(n / 10) + [DigitChar(n % 10)]
  }

  /** Python's str() of an int. */
  function IntText(i: int): (s: string)
    ensures |s| > 0
    ensures i < 0 <==> s[0] == '-'
  {
    if i < 0 then "-" + NatText(-i) else NatText(i)
  }

  lemma {:induction false} ParseNatText(n: nat)
    ensures ParseNat(NatText(n)) == n
  {
    if n >= 10 {
      var s := NatText(n);
      assert s[..|s| - 1] == NatText(n / 10);
      ParseNatText(n / 10);
    }
  }

  /** Different numbers have different decimal text. */
  lemma NatTextInjective(a: nat, b: nat)
    ensures NatText(a) == NatText(b) ==> a == b
  {
    ParseNatText(a);
    ParseNatText(b);
  }

  /** The length of the run of digits a string starts with. */
  function DigitRun(s: string): (n: nat)
    ensures n <= |s|
  {
    if s == [] || !IsDigit(s[0]) then 0 else 1 + DigitRun(s[1..])
  }

  lemma {:induction false} DigitRunOf(a: string, x: string)
    requires AllDigits(a) && (x == [] || !IsDigit(x[0]))
    ensures DigitRun(a + x) == |a|
  {
    if a != [] {
      assert (a + x)[1..] == a[1..] + x;
      DigitRunOf(a[1..], x);
    }
  }

  /** A number's text followed by text starting with a non-digit splits back
      into the same number and the same rest. */
  lemma NatTextPrefixUnique(i: nat, j: nat, x: string, y: string)
    requires x != [] && y != [] && !IsDigit(x[0]) && !IsDigit(y[0])
    requires NatText(i) + x == NatText(j) + y
    ensures i == j && x == y
  {
    var a, b := NatText(i), NatText(j);
    DigitRunOf(a, x);
    DigitRunOf(b, y);
    var s := a + x;
    assert |a| == |b|;
    assert a == s[..|a|] == b;
    assert x == s[|a|..] == y;
    NatTextInjective(i, j);
  }

  /** A label made of a fixed prefix, a number, a space and a suffix gives
      back the number and the suffix. */
  lemma LabelUnique(p: string, i: nat, j: nat, x: string, y: string)
    requires p + NatText(i) + " " + x == p + NatText(j) + " " + y
    ensures i == j && x == y
  {
    var a, b := " " + x, " " + y;
    var s := p + NatText(i) + " " + x;
    assert s == p + (NatText(i) + a);
    assert p + NatText(j) + " " + y == p + (NatText(j) + b);
    assert s[|p|..] == NatText(i) + a == NatText(j) + b;
    NatTextPrefixUnique(i, j, a, b);
    assert x == a[1..] && y == b[1..];
  }

  function Pow10(w: nat): (p: nat)
    ensures p >= 1
  {
    if w == 0 then 1 else 10 * Pow10(w - 1)
  }

  /** The last `width` decimal digits of n, zero-padded on the left
      (the `%02d`-style fields of strftime). */
  function Digits(n: nat, width: nat): (s: string)
    ensures |s| == width
  {
    if width == 0 then "" else Digits(n / 10, width - 1) + [DigitChar(n % 10)]
  }

  lemma {:induction false} DigitsAreDigits(n: nat, width: nat)
    ensures AllDigits(Digits(n, width))
  {
    if width > 0 {
      DigitsAreDigits(n / 10, width - 1);
    }
  }

  lemma {:induction false} ParseDigits(n: nat, width: nat)
    requires n < Pow10(width)
    ensures AllDigits(Digits(n, width)) && ParseNat(Digits(n, width)) == n
  {
    DigitsAreDigits(n, width);
    if width > 0 {
      var s := Digits(n, width);
      var d := n % 10;
      assert s[..|s| - 1] == Digits(n / 10, width - 1);
      assert s[|s| - 1] == DigitChar(d);
      assert DigitValue(DigitChar(d)) == d;
      assert n / 10 < Pow10(width - 1) by {
        assert Pow10(width) == 10 * Pow10(width - 1);
      }
      ParseDigits(n / 10, width - 1);
      assert ParseNat(s) == ParseNat(s[..|s| - 1]) * 10 + d;
    }
  }

  /** A calendar date and time of day, as Python's datetime holds it. */
  datatype DateTime = DateTime(year: nat, month: nat, day: nat,
                               hour: nat, minute: nat, second: nat, microsecond: nat)

  predicate ValidDateTime(t: DateTime) {
    && 1 <= t.year <= 9999
    && 1 <= t.month <= 12
    && 1 <= t.day <= 31
    && t.hour < 24
    && t.minute < 60
    && t.second < 60
    && t.microsecond < 1000000
  }

  type Timestamp = t: DateTime | ValidDateTime(t) witness DateTime(1970, 1, 1, 0, 0, 0, 0)

  /** strftime("%Y-%m-%d %H:%M"): seconds and microseconds are dropped. */
  function FormatMinute(t: Timestamp): (s: string)
    ensures |s| == 16
  {
    Digits(t.year, 4) + "-" + Digits(t.month, 2) + "-" + Digits(t.day, 2) + " "
      + Digits(t.hour, 2) + ":" + Digits(t.minute, 2)
  }

  predicate SameMinute(a: Timestamp, b: Timestamp) {
    a.year == b.year && a.month == b.month && a.day == b.day
    && a.hour == b.hour && a.minute == b.minute
  }

  /** Where each field sits in the formatted text. */
  lemma FormatMinuteFields(t: Timestamp)
    ensures var s := FormatMinute(t);
      && s[0..4] == Digits(t.year, 4) && s[5..7] == Digits(t.month, 2)
      && s[8..10] == Digits(t.day, 2) && s[11..13] == Digits(t.hour, 2)
      && s[14..16] == Digits(t.minute, 2)
  {
  }

  lemma FieldsFit(t: Timestamp)
    ensures t.year < Pow10(4) && t.month < Pow10(2) && t.day < Pow10(2)
    ensures t.hour < Pow10(2) && t.minute < Pow10(2)
  {
    assert Pow10(2) == 100;
    assert Pow10(4) == 100 * Pow10(2);
  }

  /** Two timestamps get the same text exactly when they fall in the same minute. */
  lemma FormatMinuteExact(a: Timestamp, b: Timestamp)
    ensures FormatMinute(a) == FormatMinute(b) <==> SameMinute(a, b)
  {
    if FormatMinute(a) == FormatMinute(b) {
      FormatMinuteFields(a);
      FormatMinuteFields(b);
      FieldsFit(a);
      FieldsFit(b);
      ParseDigits(a.year, 4); ParseDigits(b.year, 4);
      ParseDigits(a.month, 2); ParseDigits(b.month, 2);
      ParseDigits(a.day, 2); ParseDigits(b.day, 2);
      ParseDigits(a.hour, 2); ParseDigits(b.hour, 2);
      ParseDigits(a.minute, 2); ParseDigits(b.minute, 2);
    }
  }
}

=== FILE: wrappers.dfy ===
/** Failure-compatible wrappers: a Python value that may be None, and an
    operation that may raise. Both work with Dafny's `:-` operator. */
module Wrappers {

  datatype Option<+T> = None | Some(value: T) {
    predicate IsFailure() {
      None?
    }

    function PropagateFailure<U>(): Option<U>
      requires None?
    {
      None
    }

    function Extract(): T
      requires Some?
    {
      value
    }
  }

  datatype Result<+T, +E> = Success(value: T) | Failure(error: E) {
    predicate IsFailure() {
      Failure?
    }

    function PropagateFailure<U>(): Result<U, E>
      requires Failure?
    {
      Failure(error)
    }

    function Extract(): T
      requires Success?
    {
      value
    }
  }

  function Min(a: nat, b: nat): nat {
    if a <= b then a else b
  }
}
